=== FILE: README.md ===
# Space Launch Companion — data layer and view models in Dafny

Space Launch Companion is an Android app that lists upcoming rocket launches
from the Launch Library 2 API and shows a detail screen per launch. This
project models its data core:

- the API-to-domain mappers and the domain-to-cache mappers for launch
  summaries and launch details;
- the Room DAO over three tables: `cached_launches`, `favorite_launches` and
  `cached_launch_details`;
- `LaunchRepositoryImpl`. It fetches from the API, falls back to the cache,
  evicts week-old rows, stores favorites and turns exceptions into
  user-facing ones;
- the two view models, `LaunchViewModel` for the list and
  `LaunchDetailViewModel` for the detail screen.

How the model is built:

- **The database** is an immutable `LaunchDao.Store`: three maps keyed by
  primary key. Each DAO statement is a function from a store to a store, or
  to the rows it reads.
- **Unordered reads.** SQL leaves the scan order open. The model
  enumerates the table as an arbitrary sequence, so those reads are ghost
  functions.
- **Repository operations** take three inputs: the store, an environment
  `Env`, and, for fetching operations, what the API call produced (`Remote`).
  `Env` holds the clock reading and the DAO statements that throw, with their
  exceptions. Each operation returns the new store and its result or
  exception.
- **View models.** Each coroutine a view model launches is one atomic step.
  What the awaited call returned or threw is a parameter of that step.
- **Cross-layer lemmas** feed repository results into the view models.

Modules, one per source file or concept:

- `Common`: `Option`, `Result`, `Outcome` and `int32`.
- `Strings`: code-point ordering, `contains` and decimal rendering.
- `Sorting`: a stable insertion sort.
- `Domain`, `Dtos`, `Entities` and `Faults`: the data model.
- `LaunchMapper`, `CachedLaunchMapper`, `LaunchDetailMapper` and
  `CachedLaunchDetailMapper`: the mappers.
- `LaunchDao`, `LaunchSorting` and `LaunchRepository`: the data layer.
- `LaunchViewModel` and `LaunchDetailViewModel`: the screens.

What the proofs show about the app:

- **The `ROCKET` sort order is not shared.** The repository and the list
  screen substitute different names for a launch without a rocket (`""` and
  `"ZZZ"`). For every other order, and for lists where every launch has a
  rocket, the two agree (`SentinelIrrelevant`, for all inputs). A single
  two-launch list illustrates the disagreement (`RocketOrdersDisagree`).
- **`"ZZZ"` does not put rocketless launches last.** This is illustrated by
  one example: a rocket named "Zhuque-2" sorts after `"ZZZ"`
  (`MissingRocketNotLast`).
- **Repository errors reach the detail screen as plain exceptions.** The
  repository rewraps every error before the detail screen sees it. So the
  screen's "no internet" and "server not responding" branches never run for
  it, and it shows only "launch not found" or the generic failure text
  (`RepositoryFaultShownAs`, `LoadThroughRepository`).
- **A favorite can silently drop out of the list screen.** The favorites
  query joins on `cached_launches`. A favorite whose summary row has been
  evicted disappears from the screen's set (`LoadFavoritesSeesCachedOnly`).
- **A failed favorite check looks like "not a favorite".** `isFavorite` in
  the repository swallows errors and answers `false`
  (`CheckThroughRepository`).
- **A cached detail is lossy.** A detail read back from the cache is not the
  detail that was fetched. `CacheRoundTrip` states exactly what survives.

## Model

| member | source | states |
|---|---|---|
| Sorting.SortBy | app/src/main/java/com/animeybe/spacelaunchcompanion/presentation/viewmodel/LaunchViewModel.kt:176-184 | Kotlin's `sortedBy` is a stable sort. The result is ordered by the key, is a permutation of the input, and keeps the input order among elements with equal keys. |
| Strings.IntToDecimal | app/src/main/java/com/animeybe/spacelaunchcompanion/presentation/viewmodel/LaunchDetailViewModel.kt:60-61 | Rendering an `Int` into the rate-limit text gives a minus sign exactly for negative numbers, followed by the digits of the absolute value. |
| Strings.DecimalRoundTrip | app/src/main/java/com/animeybe/spacelaunchcompanion/presentation/viewmodel/LaunchDetailViewModel.kt:60-61 | The digits written for the minutes denote the number of minutes: reading them back gives the same value. |
| LaunchMapper.DtoToDomain | app/src/main/java/com/animeybe/spacelaunchcompanion/data/mapper/LaunchMapper.kt:14-49 | Mapping succeeds exactly when id, name, net, status, pad, pad location and any rocket configuration are present. Otherwise it throws a null-pointer exception, either from an unguarded dereference or from the null check of a non-null `Launch` parameter. Absent names take their "Unknown …" defaults. The provider collapses to its name, or to "Unknown Provider" when the provider or its name is absent. Mission and rocket are present iff present on the wire. |
| LaunchMapper.MapLaunches | app/src/main/java/com/animeybe/spacelaunchcompanion/data/repository/LaunchRepositoryImpl.kt:52 | The whole response maps, in order and id for id, exactly when every element maps. |
| CachedLaunchMapper.CachedToDomain | app/src/main/java/com/animeybe/spacelaunchcompanion/data/mapper/CachedLaunchMapper.kt:35-70 | A row becomes a launch with the same id, name, date, image, provider and country. A mission or rocket is rebuilt iff its name column is set. |
| CachedLaunchMapper.DomainToCached | app/src/main/java/com/animeybe/spacelaunchcompanion/data/mapper/CachedLaunchMapper.kt:14-33 | A launch becomes a row stamped with the clock, with no orphan columns. Reading the row back gives exactly the launch. |
| CachedLaunchMapper.RowRoundTrip | app/src/main/java/com/animeybe/spacelaunchcompanion/data/mapper/CachedLaunchMapper.kt:14-70 | Row to launch to row returns the row iff the row has no mission or rocket columns without a name. Otherwise those columns are dropped. |
| CachedLaunchMapper.ToCachedAll | app/src/main/java/com/animeybe/spacelaunchcompanion/data/repository/LaunchRepositoryImpl.kt:117 | Every launch of the batch becomes a row with its id and the batch's clock reading, and each row reads back as its launch. |
| CachedLaunchMapper.ToDomainAll | app/src/main/java/com/animeybe/spacelaunchcompanion/data/repository/LaunchRepositoryImpl.kt:144 | Rows map to launches one for one, in order. |
| LaunchDetailMapper.DtoToDomain | app/src/main/java/com/animeybe/spacelaunchcompanion/data/mapper/LaunchDetailMapper.kt:8-32 | Mapping succeeds exactly when status, pad and pad location are present and every nested object hands its non-null domain parameters a value: the names of any provider, rocket configuration, pad, location, agency and program, and the location's country code. Absent id, name and times take "unknown", "Unnamed Launch" and "". A present provider is copied field for field, and an absent one becomes the placeholder provider. Nested objects and lists are present iff present on the wire. |
| LaunchDetailMapper.MapLaunchServiceProvider | app/src/main/java/com/animeybe/spacelaunchcompanion/data/mapper/LaunchDetailMapper.kt:34-44 | A provider maps exactly when its name is present, and then all seven fields are copied. An absent name reaches the domain provider's non-null parameter and throws. |
| LaunchDetailMapper.MapOrbit | app/src/main/java/com/animeybe/spacelaunchcompanion/data/mapper/LaunchDetailMapper.kt:57-63 | An orbit is copied field for field, nulls included. |
| LaunchDetailMapper.MapAgencies | app/src/main/java/com/animeybe/spacelaunchcompanion/data/mapper/LaunchDetailMapper.kt:53 | Agencies map one for one, in order, exactly when every agency has a name; otherwise the list throws. |
| LaunchDetailMapper.MapAgency | app/src/main/java/com/animeybe/spacelaunchcompanion/data/mapper/LaunchDetailMapper.kt:111-119 | An agency maps exactly when its name is present, and then all five fields are copied. |
| LaunchDetailMapper.MapAgencyList | app/src/main/java/com/animeybe/spacelaunchcompanion/data/mapper/LaunchDetailMapper.kt:53 | A null agency list stays null. A present one maps exactly when every agency is named, and then maps element for element, keeping length, order and ids. |
| LaunchDetailMapper.MapMissionDetail | app/src/main/java/com/animeybe/spacelaunchcompanion/data/mapper/LaunchDetailMapper.kt:46-55 | A mission maps exactly when its agencies do. The id, description and type are copied, and the name takes "Unknown Mission" when absent. The orbit is present iff present on the wire and then mapped field for field. The agency list is the mapped wire list, null iff null. |
| LaunchDetailMapper.MapRocketDetail | app/src/main/java/com/animeybe/spacelaunchcompanion/data/mapper/LaunchDetailMapper.kt:65-70 | A rocket maps exactly when its configuration and the configuration's name are present, and keeps its id. |
| LaunchDetailMapper.MapRocketConfigurationDetail | app/src/main/java/com/animeybe/spacelaunchcompanion/data/mapper/LaunchDetailMapper.kt:72-87 | A configuration maps exactly when its name is present, and then all twelve fields are copied. |
| LaunchDetailMapper.MapPadDetail | app/src/main/java/com/animeybe/spacelaunchcompanion/data/mapper/LaunchDetailMapper.kt:89-97 | A pad maps exactly when its name, its location and the location's name and country code are present. It keeps id, name, map URL and launch count. |
| LaunchDetailMapper.MapLocationDetail | app/src/main/java/com/animeybe/spacelaunchcompanion/data/mapper/LaunchDetailMapper.kt:99-109 | A location maps exactly when its name and country code are present, and then all seven fields are copied. |
| LaunchDetailMapper.MapPrograms | app/src/main/java/com/animeybe/spacelaunchcompanion/data/mapper/LaunchDetailMapper.kt:26 | Programs map one for one, in order, exactly when every program maps; otherwise the list throws. |
| LaunchDetailMapper.MapProgram | app/src/main/java/com/animeybe/spacelaunchcompanion/data/mapper/LaunchDetailMapper.kt:121-130 | A program maps exactly when its name is present and its agencies map. Id, name, description, image URL and wiki URL are copied, and the agency list is the mapped wire list, null iff null. |
| CachedLaunchDetailMapper.DomainToCached | app/src/main/java/com/animeybe/spacelaunchcompanion/data/mapper/CachedLaunchDetailMapper.kt:8-33 | A detail becomes a row under its id, stamped with the clock. Mission and rocket columns are set iff the detail has a mission or rocket, never as orphans. |
| CachedLaunchDetailMapper.CachedToDomain | app/src/main/java/com/animeybe/spacelaunchcompanion/data/mapper/CachedLaunchDetailMapper.kt:35-107 | Rebuilding a detail gives empty program and video lists and no hold or fail reason. Writing the detail back reproduces the row iff the row has no orphan columns. |
| CachedLaunchDetailMapper.CacheRoundTrip | app/src/main/java/com/animeybe/spacelaunchcompanion/data/mapper/CachedLaunchDetailMapper.kt:8-107 | After a trip through the cache, a detail keeps its id, name, status, times, images, description and four provider fields. Nested ids become 0. Mission orbit, location extras and pad extras become null. A rocket keeps only its name and family; every other configuration field becomes null. |
| CachedLaunchDetailMapper.RoundTripIgnoresWriteTime | app/src/main/java/com/animeybe/spacelaunchcompanion/data/mapper/CachedLaunchDetailMapper.kt:8-33 | The clock reading stamped on the row does not affect the detail read back. |
| CachedLaunchDetailMapper.CacheRoundTripIdempotent | app/src/main/java/com/animeybe/spacelaunchcompanion/data/mapper/CachedLaunchDetailMapper.kt:8-107 | A second trip through the cache loses nothing more. |
| LaunchDao.InsertCachedLaunches | app/src/main/java/com/animeybe/spacelaunchcompanion/data/local/dao/LaunchDao.kt:16-17 | `REPLACE` upsert. Every id of the batch is stored, the last row with an id wins, rows of other ids and the other tables are untouched, and no other id appears. |
| LaunchDao.GetCachedLaunches | app/src/main/java/com/animeybe/spacelaunchcompanion/data/local/dao/LaunchDao.kt:19-20 | Returns min(50, table size) rows of the table, newest first. No omitted row is newer than a returned one. |
| LaunchDao.DeleteOldCachedLaunches | app/src/main/java/com/animeybe/spacelaunchcompanion/data/local/dao/LaunchDao.kt:22-23 | Keeps exactly the summary rows stamped at or after the timestamp, unchanged. |
| LaunchDao.AddToFavorites | app/src/main/java/com/animeybe/spacelaunchcompanion/data/local/dao/LaunchDao.kt:26-27 | Upserts the favorite under its launch id and leaves every other favorite and table as it was. |
| LaunchDao.RemoveFromFavorites | app/src/main/java/com/animeybe/spacelaunchcompanion/data/local/dao/LaunchDao.kt:29-30 | Removes exactly that launch id from the favorites. |
| LaunchDao.GetAllFavorites | app/src/main/java/com/animeybe/spacelaunchcompanion/data/local/dao/LaunchDao.kt:32-33 | Every favorite row exactly once. |
| LaunchDao.IsFavorite | app/src/main/java/com/animeybe/spacelaunchcompanion/data/local/dao/LaunchDao.kt:35-36 | Returns a row iff the launch id is a favorite, and that row is the stored one. |
| LaunchDao.GetFavoriteLaunches | app/src/main/java/com/animeybe/spacelaunchcompanion/data/local/dao/LaunchDao.kt:38-41 | The inner join: exactly the summary rows whose id is a favorite, each once and so with distinct ids, most recently added first. |
| LaunchDao.InsertCachedLaunchDetail | app/src/main/java/com/animeybe/spacelaunchcompanion/data/local/dao/LaunchDao.kt:44-45 | Upserts the detail row under its id and leaves every other row as it was. |
| LaunchDao.GetCachedLaunchDetail | app/src/main/java/com/animeybe/spacelaunchcompanion/data/local/dao/LaunchDao.kt:47-48 | Returns a row iff one is stored under the id, and that row carries the id. |
| LaunchDao.DeleteOldCachedLaunchDetails | app/src/main/java/com/animeybe/spacelaunchcompanion/data/local/dao/LaunchDao.kt:50-51 | Keeps exactly the detail rows stamped at or after the timestamp, unchanged. |
| LaunchDao.FavoriteRoundTrip | app/src/main/java/com/animeybe/spacelaunchcompanion/data/local/dao/LaunchDao.kt:26-36 | After adding, the favorite query finds the favorite; after removing, it finds nothing. Other ids are unaffected. |
| LaunchDao.RemoveFromFavoritesIdempotent | app/src/main/java/com/animeybe/spacelaunchcompanion/data/local/dao/LaunchDao.kt:26-30 | Removing twice is removing once. Adding then removing is removing. |
| LaunchDao.DeleteOldCachedLaunchesComposes | app/src/main/java/com/animeybe/spacelaunchcompanion/data/local/dao/LaunchDao.kt:22-23 | Two evictions are one eviction at the later timestamp. |
| LaunchDao.DeleteOldCachedLaunchDetailsComposes | app/src/main/java/com/animeybe/spacelaunchcompanion/data/local/dao/LaunchDao.kt:50-51 | Two detail evictions are one at the later timestamp. |
| LaunchDao.DetailRoundTrip | app/src/main/java/com/animeybe/spacelaunchcompanion/data/local/dao/LaunchDao.kt:44-48 | A detail row just inserted is read back unchanged. |
| LaunchSorting.SortLaunches | app/src/main/java/com/animeybe/spacelaunchcompanion/data/repository/LaunchRepositoryImpl.kt:245-252 | Each of the seven orders gives a stable permutation. Keys ascend under `compareTo`, or descend for `DATE_DESC` and `NAME_DESC`. |
| LaunchSorting.RocketOrdersDisagree | app/src/main/java/com/animeybe/spacelaunchcompanion/data/repository/LaunchRepositoryImpl.kt:252 | With "" for a missing rocket, a rocketless launch sorts before "Falcon 9". With the list screen's "ZZZ", it sorts after. |
| LaunchSorting.MissingRocketNotLast | app/src/main/java/com/animeybe/spacelaunchcompanion/presentation/viewmodel/LaunchViewModel.kt:183 | "ZZZ" still sorts a rocketless launch before a rocket named "Zhuque-2". |
| LaunchSorting.SentinelIrrelevant | app/src/main/java/com/animeybe/spacelaunchcompanion/presentation/viewmodel/LaunchViewModel.kt:176-184 | On every order but `ROCKET`, and on lists where every launch has a rocket, the repository and the screen order identically. |
| LaunchRepository.CacheLaunches | app/src/main/java/com/animeybe/spacelaunchcompanion/data/repository/LaunchRepositoryImpl.kt:115-123 | Each launch of the batch (the last with its id) reads back as itself, stamped now. Other rows are untouched. A failing insert is swallowed and changes nothing. |
| LaunchRepository.CacheLaunchDetail | app/src/main/java/com/animeybe/spacelaunchcompanion/data/repository/LaunchRepositoryImpl.kt:125-137 | The detail row under the detail's id reads back as the detail's cache round trip, stamped now. A failing insert is swallowed. |
| LaunchRepository.GetCachedLaunches | app/src/main/java/com/animeybe/spacelaunchcompanion/data/repository/LaunchRepositoryImpl.kt:141-151 | The newest min(50, n) stored launches, newest first, each as its stored row reads. Ids are distinct, and no stored row left out is newer than a listed one. `[]` when the query throws. |
| LaunchRepository.GetCachedLaunchDetail | app/src/main/java/com/animeybe/spacelaunchcompanion/data/repository/LaunchRepositoryImpl.kt:153-167 | The stored detail for the id, iff one is stored and the query does not throw. |
| LaunchRepository.GetUpcomingLaunches | app/src/main/java/com/animeybe/spacelaunchcompanion/data/repository/LaunchRepositoryImpl.kt:35-70 | Never throws. When the fetch returns a `results` list and mapping and eviction succeed: the API's list in order. Rows older than a week and not replaced are gone, younger ones stay, and no other id appears. The batch is cached unless the insert fails; then the store is exactly the evicted one. Otherwise: the store unchanged and the cached list. |
| LaunchRepository.MapToUserFriendlyException | app/src/main/java/com/animeybe/spacelaunchcompanion/data/repository/LaunchRepositoryImpl.kt:184-195 | Always a plain `Exception` with a message. The three network classes get fixed texts. Everything else gets "Не удалось загрузить данные: " and its message, or "Неизвестная ошибка". |
| LaunchRepository.UserFriendlyClassesDistinct | app/src/main/java/com/animeybe/spacelaunchcompanion/data/repository/LaunchRepositoryImpl.kt:184-195 | The rewrapped text starts with the catch-all prefix iff the exception was in the catch-all class, and the three fixed texts differ. |
| LaunchRepository.GetLaunchDetail | app/src/main/java/com/animeybe/spacelaunchcompanion/data/repository/LaunchRepositoryImpl.kt:72-111 | When fetched and mapped: the detail, cached. Otherwise: the store unchanged, then the cached detail for the id, or else the rewrapped exception of the API or of the mapper. |
| LaunchRepository.DetailServedFromCache | app/src/main/java/com/animeybe/spacelaunchcompanion/data/repository/LaunchRepositoryImpl.kt:72-111 | A detail fetched under its own id is returned from the cache, as its cache round trip, when a later fetch fails. |
| LaunchRepository.ClearCache | app/src/main/java/com/animeybe/spacelaunchcompanion/data/repository/LaunchRepositoryImpl.kt:171-180 | Only deletes. Favorites are untouched. Summary rows, then detail rows, stamped before now are removed. A failing delete stops the clearing silently. |
| LaunchRepository.AddToFavorites | app/src/main/java/com/animeybe/spacelaunchcompanion/data/repository/LaunchRepositoryImpl.kt:199-207 | Adds the id stamped now and leaves every other favorite row as it was, or rethrows the DAO's exception and changes nothing. |
| LaunchRepository.RemoveFromFavorites | app/src/main/java/com/animeybe/spacelaunchcompanion/data/repository/LaunchRepositoryImpl.kt:209-217 | Removes the id and leaves every other favorite row as it was, or rethrows the DAO's exception and changes nothing. |
| LaunchRepository.IsFavorite | app/src/main/java/com/animeybe/spacelaunchcompanion/data/repository/LaunchRepositoryImpl.kt:219-228 | True iff the query does not throw and the id is a favorite. |
| LaunchRepository.GetFavoriteLaunches | app/src/main/java/com/animeybe/spacelaunchcompanion/data/repository/LaunchRepositoryImpl.kt:230-240 | Exactly the favorites that have a cached summary row, as stored, each once, most recently added first. `[]` when the query throws. |
| LaunchRepository.GetLaunchesSortedBy | app/src/main/java/com/animeybe/spacelaunchcompanion/data/repository/LaunchRepositoryImpl.kt:242-256 | Same store effect as `getUpcomingLaunches`. Its list is permuted and sorted by the chosen key, a missing rocket counting as "". The sort is stable: launches with equal keys keep their order. |
| LaunchViewModel.ApplySorting | app/src/main/java/com/animeybe/spacelaunchcompanion/presentation/viewmodel/LaunchViewModel.kt:172-185 | A stable permutation ordered by the chosen key, a missing rocket counting as "ZZZ". |
| LaunchViewModel.ApplyCurrentSorting | app/src/main/java/com/animeybe/spacelaunchcompanion/presentation/viewmodel/LaunchViewModel.kt:163-170 | Only a shown list is re-sorted, from the loaded list, keeping its favorites. The result shows the loaded list stably sorted by the current order. Any other state is unchanged. |
| LaunchViewModel.ShowSortDialog | app/src/main/java/com/animeybe/spacelaunchcompanion/presentation/viewmodel/LaunchViewModel.kt:142-145 | The dialog becomes visible. Nothing else changes. |
| LaunchViewModel.HideSortDialog | app/src/main/java/com/animeybe/spacelaunchcompanion/presentation/viewmodel/LaunchViewModel.kt:147-150 | The dialog becomes hidden. Nothing else changes. |
| LaunchViewModel.SetSortType | app/src/main/java/com/animeybe/spacelaunchcompanion/presentation/viewmodel/LaunchViewModel.kt:152-161 | Records the order and hides the dialog. A shown list becomes the loaded list in that order. |
| LaunchViewModel.ListErrorMessage | app/src/main/java/com/animeybe/spacelaunchcompanion/presentation/viewmodel/LaunchViewModel.kt:68-76 | Each of the four texts is shown exactly for its class: unknown host, socket timeout, other I/O, anything else. |
| LaunchViewModel.LoadLaunches | app/src/main/java/com/animeybe/spacelaunchcompanion/presentation/viewmodel/LaunchViewModel.kt:49-79 | On success, keeps the list and shows it in the current order with the current favorites. On failure, shows the classified text and keeps the previously loaded list. |
| LaunchViewModel.Ids | app/src/main/java/com/animeybe/spacelaunchcompanion/presentation/viewmodel/LaunchViewModel.kt:85 | The set of the launches' ids. |
| LaunchViewModel.LoadFavorites | app/src/main/java/com/animeybe/spacelaunchcompanion/presentation/viewmodel/LaunchViewModel.kt:81-92 | Replaces the favorite ids by those of the result, and does not refresh the shown state. A failure changes nothing. |
| LaunchViewModel.UpdateSuccessStateWithFavorites | app/src/main/java/com/animeybe/spacelaunchcompanion/presentation/viewmodel/LaunchViewModel.kt:134-139 | A shown list takes the current favorites. Any other state is unchanged. |
| LaunchViewModel.ToggleFavorite | app/src/main/java/com/animeybe/spacelaunchcompanion/presentation/viewmodel/LaunchViewModel.kt:110-132 | After a successful call, exactly that id flips membership and the shown state takes the new set. After a failed call, nothing changes. |
| LaunchViewModel.IsFavorite | app/src/main/java/com/animeybe/spacelaunchcompanion/presentation/viewmodel/LaunchViewModel.kt:187-189 | Answers from the screen's favorite id set, not from the table. |
| LaunchViewModel.ToggleFlipsIsFavorite | app/src/main/java/com/animeybe/spacelaunchcompanion/presentation/viewmodel/LaunchViewModel.kt:110-132 | A successful toggle flips the answer of `isFavorite` for that id and for no other. A failed toggle changes no answer. |
| LaunchViewModel.StepsShowSortedList | app/src/main/java/com/animeybe/spacelaunchcompanion/presentation/viewmodel/LaunchViewModel.kt:49-170 | Over any sequence of loads, toggles and sort actions, a shown list is the loaded list in the current order. |
| LaunchViewModel.StepShowsSortedList | app/src/main/java/com/animeybe/spacelaunchcompanion/presentation/viewmodel/LaunchViewModel.kt:49-170 | Each single step keeps a shown list equal to the loaded list in the current order. |
| LaunchViewModel.InitialShowsSortedList | app/src/main/java/com/animeybe/spacelaunchcompanion/presentation/viewmodel/LaunchViewModel.kt:30-41 | The screen starts loading, sorted by date ascending, dialog hidden. |
| LaunchViewModel.ToggleTwice | app/src/main/java/com/animeybe/spacelaunchcompanion/presentation/viewmodel/LaunchViewModel.kt:110-139 | Two successful toggles of one launch restore the screen. |
| LaunchViewModel.ToggleKeepsFavoritesInSync | app/src/main/java/com/animeybe/spacelaunchcompanion/presentation/viewmodel/LaunchViewModel.kt:110-132 | With the real repository, the screen's favorite ids stay equal to the favorites table whether the call succeeds or throws. |
| LaunchViewModel.LoadFavoritesSeesCachedOnly | app/src/main/java/com/animeybe/spacelaunchcompanion/presentation/viewmodel/LaunchViewModel.kt:81-92 | Loading favorites through the real repository yields the favorite ids that still have a cached summary row, not all favorites. |
| LaunchDetailViewModel.MinutesOf | app/src/main/java/com/animeybe/spacelaunchcompanion/presentation/viewmodel/LaunchDetailViewModel.kt:60 | `Int` division by 60 truncates toward zero: whole minutes, rounded toward zero for negative inputs too. |
| LaunchDetailViewModel.DetailErrorMessage | app/src/main/java/com/animeybe/spacelaunchcompanion/presentation/viewmodel/LaunchDetailViewModel.kt:59-87 | The catch clauses in order: rate-limit text with minutes, the API message, no internet, server timeout. Otherwise "launch not found" iff the message contains "404", else the generic text. |
| LaunchDetailViewModel.LoadLaunchDetail | app/src/main/java/com/animeybe/spacelaunchcompanion/presentation/viewmodel/LaunchDetailViewModel.kt:50-87 | Success with the detail iff the call returned. Otherwise the classified error. The id and favorite flag are unchanged. |
| LaunchDetailViewModel.CheckFavoriteStatus | app/src/main/java/com/animeybe/spacelaunchcompanion/presentation/viewmodel/LaunchDetailViewModel.kt:89-99 | The flag takes the answer; an exception leaves it unchanged. |
| LaunchDetailViewModel.Init | app/src/main/java/com/animeybe/spacelaunchcompanion/presentation/viewmodel/LaunchDetailViewModel.kt:32-48 | Without an id: the invalid-id error, whatever the calls would return. With one: the loaded or classified detail, and the favorite flag set iff the check answered true. |
| LaunchDetailViewModel.ToggleFavorite | app/src/main/java/com/animeybe/spacelaunchcompanion/presentation/viewmodel/LaunchDetailViewModel.kt:101-119 | The flag flips iff the add or remove call succeeded. |
| LaunchDetailViewModel.Retry | app/src/main/java/com/animeybe/spacelaunchcompanion/presentation/viewmodel/LaunchDetailViewModel.kt:121-125 | Reloads iff there is an id. |
| LaunchDetailViewModel.RateLimitMinutes | app/src/main/java/com/animeybe/spacelaunchcompanion/presentation/viewmodel/LaunchDetailViewModel.kt:59-64 | For a non-negative wait, the message states the whole minutes m with 60m ≤ seconds < 60m + 60. |
| LaunchDetailViewModel.InvalidIdIsFinal | app/src/main/java/com/animeybe/spacelaunchcompanion/presentation/viewmodel/LaunchDetailViewModel.kt:121-125 | Without an id, any sequence of retries leaves the screen as it was, so the invalid-id error shown for a missing id stays. |
| LaunchDetailViewModel.PlainFaultShownAs | app/src/main/java/com/animeybe/spacelaunchcompanion/presentation/viewmodel/LaunchDetailViewModel.kt:77-86 | A plain `Exception` shows "launch not found" iff its message contains "404", else the generic text. |
| LaunchDetailViewModel.RepositoryFaultShownAs | app/src/main/java/com/animeybe/spacelaunchcompanion/presentation/viewmodel/LaunchDetailViewModel.kt:59-87 | For any exception rewrapped by the repository, the screen shows "launch not found" iff it was in the catch-all class with "404" in its message. Otherwise it shows the generic text, never the no-internet or timeout texts. |
| LaunchDetailViewModel.LoadThroughRepository | app/src/main/java/com/animeybe/spacelaunchcompanion/presentation/viewmodel/LaunchDetailViewModel.kt:50-87 | Through the real repository, the screen errs iff neither the API nor the cache has the detail, and then shows one of exactly two texts. |
| LaunchDetailViewModel.CheckThroughRepository | app/src/main/java/com/animeybe/spacelaunchcompanion/presentation/viewmodel/LaunchDetailViewModel.kt:89-99 | Through the real repository, the flag is set iff the query does not throw and the id is a favorite. A failed query reads as "not a favorite". |
| LaunchDetailViewModel.ToggleKeepsFlagInSync | app/src/main/java/com/animeybe/spacelaunchcompanion/presentation/viewmodel/LaunchDetailViewModel.kt:101-119 | Through the real repository, the flag stays equal to the favorites table whether the call succeeds or throws. |

## Left out

- Logging, `Log.d`/`Log.e` calls and the `finally` blocks that only log.
- Coroutine scheduling. Each `viewModelScope.launch` is an atomic step, so
  interleavings are not modelled. One example is `loadLaunches` racing
  `loadFavorites` in `init`. The step sequences of
  `LaunchViewModel.StepsShowSortedList` cover any order of completion.
- `LaunchViewModel.clearCache` is not a member of its own. It runs
  `LaunchRepository.ClearCache` and then `LaunchViewModel.LoadLaunches`, and
  its catch clause is unreachable because the repository's `clearCache`
  never throws.
- The use cases are one-line delegations to the repository. The
  cross-layer lemmas call the repository directly.
- `NETWORK_TIMEOUT_MS` and the injected `NetworkMonitor` are never read by
  the repository code, so nothing models them.
- The HTTP client, Retrofit, Gson decoding and the Room schema, converters
  and migrations: what a remote call produced is a parameter (`Remote`).
  What decoding can hand over is kept: every reference-typed wire field,
  the response's `results` list included, is an `Option`, since an absent
  JSON field arrives as `null` whatever Kotlin declares. An absent `Int` field arrives as 0, which the mappers copy.
  A `null` element inside a JSON list is not modelled.
- UI composables, navigation, dependency injection and the theme.
- `Long` timestamps are unbounded integers. `now - CACHE_DURATION_MS` does
  not wrap for any realistic clock.
- Clock readings: the source reads the clock once for the eviction bound
  and again in each entity's default `cachedAt`/`addedAt`. The model uses
  one reading, `Env.now`, for all of them within one call.
- String order is Dafny's `char` order, which is Unicode code points.
  Kotlin's `compareTo` compares UTF-16 code units. The two differ only
  between characters above U+FFFF and characters in U+E000–U+FFFF.
- `Double` fields of the detail wire objects are carried as opaque 64-bit
  patterns. No arithmetic is done on them.
- The message text of a mapper's `NullPointerException` is a parameter
  (`Env.npeDetail`).
- LaunchDetailViewModel.DetailErrorMessage: the `?:` defaults "Запуск не
  найден" and "Ошибка API" of the API catch clauses are not modelled. The
  API exceptions are built from a non-null message, so those defaults
  cannot be reached.
- LaunchRepository.GetCachedLaunches: does not fix the order among rows
  with equal `cachedAt`, because SQLite leaves it unspecified.
- LaunchDao.GetCachedLaunches: does not fix the order among rows with
  equal `cachedAt`, for the same reason.
- LaunchDao.GetAllFavorites: states the rows but not their order, because
  the query has no `ORDER BY`.
- LaunchDao.GetFavoriteLaunches: does not fix the order among favorites
  added at the same instant.

=== FILE: cached_launch_detail_mapper.dfy ===
/** Domain detail to `cached_launch_details` row and back
    (`CachedLaunchDetailMapper`). The row keeps only the columns of the
    detail schema, so the round trip through the cache is lossy: what it
    keeps, what it resets and that it is idempotent is stated by
    `CacheRoundTrip` and `CacheRoundTripIdempotent`. */
module CachedLaunchDetailMapper {
  import opened Common
  import opened Domain
  import opened Entities

  /** Mission or rocket columns without the name column the way back keys
      the nested object on. */
  predicate HasOrphans(c: CachedLaunchDetailEntity)
  {
    || (c.missionName.None? && (c.missionDescription.Some? || c.missionType.Some?))
    || (c.rocketName.None? && c.rocketFamily.Some?)
  }

  /** `cachedAt` is the entity's default, the clock reading `now`. */
  function DomainToCached(d: LaunchDetail, now: int): (c: CachedLaunchDetailEntity)
    ensures c.id == d.id && c.cachedAt == now
    ensures c.missionName.Some? <==> d.mission.Some?
    ensures c.rocketName.Some? <==> d.rocket.Some?
    ensures !HasOrphans(c)
  {
    CachedLaunchDetailEntity(
      id := d.id,
      name := d.name,
      statusName := d.status.name,
      statusDescription := d.status.description,
      launchServiceProviderId := d.launchServiceProvider.id,
      launchServiceProviderName := d.launchServiceProvider.name,
      launchServiceProviderType := d.launchServiceProvider.kind,
      launchServiceProviderCountryCode := d.launchServiceProvider.countryCode,
      missionName := if d.mission.Some? then Some(d.mission.value.name) else None,
      missionDescription := if d.mission.Some? then d.mission.value.description else None,
      missionType := if d.mission.Some? then d.mission.value.kind else None,
      rocketName := if d.rocket.Some? then Some(d.rocket.value.configuration.name) else None,
      rocketFamily := if d.rocket.Some? then d.rocket.value.configuration.family else None,
      padName := d.pad.name,
      locationName := d.pad.location.name,
      countryCode := d.pad.location.countryCode,
      windowStart := d.windowStart,
      windowEnd := d.windowEnd,
      net := d.net,
      image := d.image,
      infographic := d.infographic,
      description := d.description,
      cachedAt := now)
  }

  /** Rebuilds a detail from a row, filling what the row has no column for
      with zero ids, nulls and empty lists. */
  function CachedToDomain(c: CachedLaunchDetailEntity): (d: LaunchDetail)
    ensures d.id == c.id
    ensures d.mission.Some? <==> c.missionName.Some?
    ensures d.rocket.Some? <==> c.rocketName.Some?
    ensures d.program == Some([]) && d.videoUrls == Some([])
    ensures d.holdReason.None? && d.failReason.None?
    // row to domain to row is exact, up to the write time, iff no orphans
    ensures DomainToCached(d, c.cachedAt) == c <==> !HasOrphans(c)
  {
    LaunchDetail(
      id := c.id,
      name := c.name,
      status := LaunchStatus(c.statusName, c.statusDescription),
      launchServiceProvider := LaunchServiceProvider(
        c.launchServiceProviderId, c.launchServiceProviderName, c.launchServiceProviderType,
        c.launchServiceProviderCountryCode, None, None, None),
      mission :=
        (match c.missionName
         case Some(n) => Some(MissionDetail(0, n, c.missionDescription, c.missionType, None, Some([])))
         case None => None),
      rocket :=
        (match c.rocketName
         case Some(n) => Some(RocketDetail(0, RocketConfigurationDetail(
                                0, n, c.rocketFamily, None, None, None, None, None, None, None, None, None)))
         case None => None),
      pad := PadDetail(0, c.padName, LocationDetail(0, c.locationName, c.countryCode, None, None, None, None), None, None),
      windowStart := c.windowStart,
      windowEnd := c.windowEnd,
      net := c.net,
      image := c.image,
      infographic := c.infographic,
      program := Some([]),
      videoUrls := Some([]),
      holdReason := None,
      failReason := None,
      description := c.description)
  }

  /** What a detail looks like after a write to the cache and a read back;
      the write time does not matter. */
  function CacheRoundTrip(d: LaunchDetail): (r: LaunchDetail)
    // kept
    ensures r.id == d.id && r.name == d.name && r.status == d.status
    ensures r.windowStart == d.windowStart && r.windowEnd == d.windowEnd && r.net == d.net
    ensures r.image == d.image && r.infographic == d.infographic && r.description == d.description
    ensures && r.launchServiceProvider.id == d.launchServiceProvider.id
            && r.launchServiceProvider.name == d.launchServiceProvider.name
            && r.launchServiceProvider.kind == d.launchServiceProvider.kind
            && r.launchServiceProvider.countryCode == d.launchServiceProvider.countryCode
    // reset
    ensures && r.launchServiceProvider.description.None?
            && r.launchServiceProvider.website.None?
            && r.launchServiceProvider.wikiUrl.None?
    ensures r.program == Some([]) && r.videoUrls == Some([]) && r.holdReason.None? && r.failReason.None?
    // mission
    ensures r.mission.Some? <==> d.mission.Some?
    ensures d.mission.Some? ==>
              r.mission.value == MissionDetail(0, d.mission.value.name, d.mission.value.description,
                                               d.mission.value.kind, None, Some([]))
    // rocket
    ensures r.rocket.Some? <==> d.rocket.Some?
    ensures d.rocket.Some? ==>
              r.rocket.value == RocketDetail(0, RocketConfigurationDetail(
                                  0, d.rocket.value.configuration.name, d.rocket.value.configuration.family,
                                  None, None, None, None, None, None, None, None, None))
    // pad and location
    ensures r.pad == PadDetail(0, d.pad.name,
                               LocationDetail(0, d.pad.location.name, d.pad.location.countryCode, None, None, None, None),
                               None, None)
  {
    CachedToDomain(DomainToCached(d, 0))
  }

  /** The write time stamped on the row does not change what is read back. */
  lemma RoundTripIgnoresWriteTime(d: LaunchDetail, now: int)
    ensures CachedToDomain(DomainToCached(d, now)) == CacheRoundTrip(d)
  {
  }

  /** A second trip through the cache loses nothing more. */
  lemma CacheRoundTripIdempotent(d: LaunchDetail)
    ensures CacheRoundTrip(CacheRoundTrip(d)) == CacheRoundTrip(d)
  {
  }
}

=== FILE: cached_launch_mapper.dfy ===
/** Domain summary to `cached_launches` row and back
    (`CachedLaunchMapper`). The flat row has a column for every field of a
    `Launch`, so the forward trip is exact; the way back rebuilds a mission
    only from a mission name and a rocket only from a rocket name. */
module CachedLaunchMapper {
  import opened Common
  import opened Domain
  import opened Entities

  /** A row holding mission or rocket columns without the name column that
      `cachedToDomain` keys the nested object on. */
  predicate HasOrphans(c: CachedLaunchEntity)
  {
    || (c.missionName.None? && (c.missionDescription.Some? || c.missionType.Some?))
    || (c.rocketName.None? && (c.rocketFamily.Some? || c.rocketVariant.Some?))
  }

  function CachedToDomain(c: CachedLaunchEntity): (l: Launch)
    ensures l.id == c.id && l.name == c.name && l.net == c.net && l.image == c.image
    ensures l.mission.Some? <==> c.missionName.Some?
    ensures l.rocket.Some? <==> c.rocketName.Some?
    ensures l.launchServiceProvider == c.launchServiceProvider
    ensures l.pad.location.country == c.country
  {
    Launch(
      id := c.id,
      name := c.name,
      status := LaunchStatus(c.statusName, c.statusDescription),
      launchServiceProvider := c.launchServiceProvider,
      mission :=
        (match c.missionName
         case Some(n) => Some(Mission(n, c.missionDescription, c.missionType))
         case None => None),
      rocket :=
        (match c.rocketName
         case Some(n) => Some(Rocket(RocketConfiguration(n, c.rocketFamily, c.rocketVariant)))
         case None => None),
      pad := Pad(c.padName, Location(c.locationName, c.country)),
      net := c.net,
      image := c.image)
  }

  /** The mapper leaves `cachedAt` to the entity's default, the clock
      reading `now` at construction. */
  function DomainToCached(l: Launch, now: int): (c: CachedLaunchEntity)
    ensures c.id == l.id && c.cachedAt == now
    ensures l.mission.None? ==> c.missionName.None? && c.missionDescription.None? && c.missionType.None?
    ensures l.rocket.None? ==> c.rocketName.None? && c.rocketFamily.None? && c.rocketVariant.None?
    ensures !HasOrphans(c)
    ensures CachedToDomain(c) == l
  {
    CachedLaunchEntity(
      id := l.id,
      name := l.name,
      statusName := l.status.name,
      statusDescription := l.status.description,
      launchServiceProvider := l.launchServiceProvider,
      missionName := if l.mission.Some? then Some(l.mission.value.name) else None,
      missionDescription := if l.mission.Some? then l.mission.value.description else None,
      missionType := if l.mission.Some? then l.mission.value.kind else None,
      rocketName := if l.rocket.Some? then Some(l.rocket.value.configuration.name) else None,
      rocketFamily := if l.rocket.Some? then l.rocket.value.configuration.family else None,
      rocketVariant := if l.rocket.Some? then l.rocket.value.configuration.variant else None,
      padName := l.pad.name,
      locationName := l.pad.location.name,
      country := l.pad.location.country,
      net := l.net,
      image := l.image,
      cachedAt := now)
  }

  /** Row to domain to row gives the row back, up to the write time, exactly
      when it has no orphan columns; orphan columns are dropped. */
  lemma RowRoundTrip(c: CachedLaunchEntity)
    ensures DomainToCached(CachedToDomain(c), c.cachedAt) == c <==> !HasOrphans(c)
    ensures HasOrphans(c) ==> !HasOrphans(DomainToCached(CachedToDomain(c), c.cachedAt))
  {
  }

  /** `launches.map { domainToCached(it) }`, all stamped with the same clock
      reading. */
  function ToCachedAll(ls: seq<Launch>, now: int): (rows: seq<CachedLaunchEntity>)
    ensures |rows| == |ls|
    ensures forall i :: 0 <= i < |ls| ==> rows[i].id == ls[i].id && rows[i].cachedAt == now
    ensures forall i :: 0 <= i < |ls| ==> CachedToDomain(rows[i]) == ls[i]
  {
    if |ls| == 0 then [] else [DomainToCached(ls[0], now)] + ToCachedAll(ls[1..], now)
  }

  /** `cached.map { cachedToDomain(it) }`. */
  function ToDomainAll(rows: seq<CachedLaunchEntity>): (ls: seq<Launch>)
    ensures |ls| == |rows|
    ensures forall i :: 0 <= i < |rows| ==> ls[i] == CachedToDomain(rows[i])
  {
    if |rows| == 0 then [] else [CachedToDomain(rows[0])] + ToDomainAll(rows[1..])
  }
}

=== FILE: common.dfy ===
/** Shared value types: Kotlin's nullable values, results of calls that may
    throw, the 32-bit `Int` and an opaque carrier for `Double` fields. */
module Common {

  /** A Kotlin `T?`: `None` is `null`. */
  datatype Option<+T> = None | Some(value: T) {

    /** The Elvis operator `this ?: default`. */
    function GetOr(default: T): T {
      match this
      case Some(v) => v
      case None => default
    }
  }

  /** The outcome of a call that either returns a value or throws. */
  datatype Result<+R, +E> = Success(value: R) | Failure(error: E)

  /** The outcome of a `Unit` call that either returns or throws. */
  datatype Outcome<+E> = Pass | Fail(error: E)

  /** Kotlin `Int`. */
  newtype int32 = x: int | -0x8000_0000 <= x < 0x8000_0000

  /** A Kotlin `Double`, carried as its IEEE-754 bit pattern and never
      inspected: the data layer only copies such values. */
  datatype Float64 = Float64(bits: bv64)
}

=== FILE: domain.dfy ===
/** The domain model: what the list and detail screens display. Kotlin's
    `type` fields are called `kind` here (`type` is a Dafny keyword). */
module Domain {
  import opened Common

  datatype LaunchStatus = LaunchStatus(name: string, description: Option<string>)

  datatype Mission = Mission(name: string, description: Option<string>, kind: Option<string>)

  datatype RocketConfiguration = RocketConfiguration(name: string, family: Option<string>, variant: Option<string>)

  datatype Rocket = Rocket(configuration: RocketConfiguration)

  /** `country` holds the provider's country code. */
  datatype Location = Location(name: string, country: string)

  datatype Pad = Pad(name: string, location: Location)

  /** A launch summary; `launchServiceProvider` is the provider's name and
      `net` the ISO-8601 "no earlier than" time. */
  datatype Launch = Launch(
    id: string,
    name: string,
    status: LaunchStatus,
    launchServiceProvider: string,
    mission: Option<Mission>,
    rocket: Option<Rocket>,
    pad: Pad,
    net: string,
    image: Option<string>)

  datatype LaunchServiceProvider = LaunchServiceProvider(
    id: int32,
    name: string,
    kind: Option<string>,
    countryCode: Option<string>,
    description: Option<string>,
    website: Option<string>,
    wikiUrl: Option<string>)

  datatype Orbit = Orbit(id: Option<int32>, name: Option<string>, abbreviation: Option<string>)

  datatype Agency = Agency(
    id: int32,
    name: string,
    kind: Option<string>,
    countryCode: Option<string>,
    description: Option<string>)

  datatype MissionDetail = MissionDetail(
    id: int32,
    name: string,
    description: Option<string>,
    kind: Option<string>,
    orbit: Option<Orbit>,
    agencies: Option<seq<Agency>>)

  datatype RocketConfigurationDetail = RocketConfigurationDetail(
    id: int32,
    name: string,
    family: Option<string>,
    variant: Option<string>,
    fullName: Option<string>,
    description: Option<string>,
    launchMass: Option<int32>,
    length: Option<Float64>,
    diameter: Option<Float64>,
    imageUrl: Option<string>,
    infoUrl: Option<string>,
    wikiUrl: Option<string>)

  datatype RocketDetail = RocketDetail(id: int32, configuration: RocketConfigurationDetail)

  datatype LocationDetail = LocationDetail(
    id: int32,
    name: string,
    countryCode: string,
    description: Option<string>,
    mapImage: Option<string>,
    totalLaunchCount: Option<int32>,
    totalLandingCount: Option<int32>)

  datatype PadDetail = PadDetail(
    id: int32,
    name: string,
    location: LocationDetail,
    mapUrl: Option<string>,
    totalLaunchCount: Option<int32>)

  datatype Program = Program(
    id: int32,
    name: string,
    description: Option<string>,
    agencies: Option<seq<Agency>>,
    imageUrl: Option<string>,
    wikiUrl: Option<string>)

  /** Everything the detail screen shows about one launch. */
  datatype LaunchDetail = LaunchDetail(
    id: string,
    name: string,
    status: LaunchStatus,
    launchServiceProvider: LaunchServiceProvider,
    mission: Option<MissionDetail>,
    rocket: Option<RocketDetail>,
    pad: PadDetail,
    windowStart: string,
    windowEnd: string,
    net: string,
    image: Option<string>,
    infographic: Option<string>,
    program: Option<seq<Program>>,
    videoUrls: Option<seq<string>>,
    holdReason: Option<string>,
    failReason: Option<string>,
    description: Option<string>)
}

=== FILE: dtos.dfy ===
/** The wire objects of the launch API as the JSON decoder hands them over.
    Every reference-typed field is an `Option` even where Kotlin declares it
    non-null, because the decoder fills absent JSON fields with `null`
    regardless of the declaration. An `Int` field is an `int32`: the decoder
    leaves an absent one at 0, which the mappers copy without a check. */
module Dtos {
  import opened Common

  datatype LaunchStatusDto = LaunchStatusDto(name: Option<string>, description: Option<string>)

  datatype LaunchServiceProviderDto = LaunchServiceProviderDto(
    id: int32,
    name: Option<string>,
    kind: Option<string>,
    countryCode: Option<string>,
    description: Option<string>,
    website: Option<string>,
    wikiUrl: Option<string>)

  datatype MissionDto = MissionDto(name: Option<string>, description: Option<string>, kind: Option<string>)

  datatype RocketConfigurationDto = RocketConfigurationDto(
    name: Option<string>,
    family: Option<string>,
    variant: Option<string>)

  datatype RocketDto = RocketDto(configuration: Option<RocketConfigurationDto>)

  datatype LocationDto = LocationDto(name: Option<string>, countryCode: Option<string>)

  datatype PadDto = PadDto(name: Option<string>, location: Option<LocationDto>)

  /** One element of the upcoming-launches list. */
  datatype LaunchDto = LaunchDto(
    id: Option<string>,
    name: Option<string>,
    status: Option<LaunchStatusDto>,
    launchServiceProvider: Option<LaunchServiceProviderDto>,
    mission: Option<MissionDto>,
    rocket: Option<RocketDto>,
    pad: Option<PadDto>,
    net: Option<string>,
    image: Option<string>)

  /** The body of `GET launch/upcoming/`. */
  datatype LaunchesResponseDto = LaunchesResponseDto(results: Option<seq<LaunchDto>>, count: int32)

  datatype OrbitDto = OrbitDto(id: Option<int32>, name: Option<string>, abbreviation: Option<string>)

  datatype AgencyDto = AgencyDto(
    id: int32,
    name: Option<string>,
    kind: Option<string>,
    countryCode: Option<string>,
    description: Option<string>)

  datatype MissionDetailDto = MissionDetailDto(
    id: int32,
    name: Option<string>,
    description: Option<string>,
    kind: Option<string>,
    orbit: Option<OrbitDto>,
    agencies: Option<seq<AgencyDto>>)

  datatype RocketConfigurationDetailDto = RocketConfigurationDetailDto(
    id: int32,
    name: Option<string>,
    family: Option<string>,
    variant: Option<string>,
    fullName: Option<string>,
    description: Option<string>,
    launchMass: Option<int32>,
    length: Option<Float64>,
    diameter: Option<Float64>,
    imageUrl: Option<string>,
    infoUrl: Option<string>,
    wikiUrl: Option<string>)

  datatype RocketDetailDto = RocketDetailDto(id: int32, configuration: Option<RocketConfigurationDetailDto>)

  datatype LocationDetailDto = LocationDetailDto(
    id: int32,
    name: Option<string>,
    countryCode: Option<string>,
    description: Option<string>,
    mapImage: Option<string>,
    totalLaunchCount: Option<int32>,
    totalLandingCount: Option<int32>)

  datatype PadDetailDto = PadDetailDto(
    id: int32,
    name: Option<string>,
    location: Option<LocationDetailDto>,
    mapUrl: Option<string>,
    totalLaunchCount: Option<int32>)

  datatype ProgramDto = ProgramDto(
    id: int32,
    name: Option<string>,
    description: Option<string>,
    agencies: Option<seq<AgencyDto>>,
    imageUrl: Option<string>,
    wikiUrl: Option<string>)

  /** The body of `GET launch/{id}/`. */
  datatype LaunchDetailDto = LaunchDetailDto(
    id: Option<string>,
    name: Option<string>,
    status: Option<LaunchStatusDto>,
    launchServiceProvider: Option<LaunchServiceProviderDto>,
    mission: Option<MissionDetailDto>,
    rocket: Option<RocketDetailDto>,
    pad: Option<PadDetailDto>,
    windowStart: Option<string>,
    windowEnd: Option<string>,
    net: Option<string>,
    image: Option<string>,
    infographic: Option<string>,
    program: Option<seq<ProgramDto>>,
    videoUrls: Option<seq<string>>,
    holdReason: Option<string>,
    failReason: Option<string>,
    description: Option<string>)
}

=== FILE: entities.dfy ===
/** The rows of the three cache tables. Timestamps are epoch milliseconds. */
module Entities {
  import opened Common

  /** A row of `cached_launches`, keyed by `id`: a flat copy of a `Launch`. */
  datatype CachedLaunchEntity = CachedLaunchEntity(
    id: string,
    name: string,
    statusName: string,
    statusDescription: Option<string>,
    launchServiceProvider: string,
    missionName: Option<string>,
    missionDescription: Option<string>,
    missionType: Option<string>,
    rocketName: Option<string>,
    rocketFamily: Option<string>,
    rocketVariant: Option<string>,
    padName: string,
    locationName: string,
    country: string,
    net: string,
    image: Option<string>,
    cachedAt: int)

  /** A row of `cached_launch_details`, keyed by `id`: the part of a
      `LaunchDetail` the schema has columns for. */
  datatype CachedLaunchDetailEntity = CachedLaunchDetailEntity(
    id: string,
    name: string,
    statusName: string,
    statusDescription: Option<string>,
    launchServiceProviderId: int32,
    launchServiceProviderName: string,
    launchServiceProviderType: Option<string>,
    launchServiceProviderCountryCode: Option<string>,
    missionName: Option<string>,
    missionDescription: Option<string>,
    missionType: Option<string>,
    rocketName: Option<string>,
    rocketFamily: Option<string>,
    padName: string,
    locationName: string,
    countryCode: string,
    windowStart: string,
    windowEnd: string,
    net: string,
    image: Option<string>,
    infographic: Option<string>,
    description: Option<string>,
    cachedAt: int)

  /** A row of `favorite_launches`, keyed by `launchId`. */
  datatype FavoriteLaunchEntity = FavoriteLaunchEntity(launchId: string, addedAt: int)
}

=== FILE: faults.dfy ===
/** The exceptions the data layer throws, catches and classifies: the API
    exception hierarchy of the domain layer, the JVM network exceptions the
    HTTP client raises, and everything else. `detail` is
    `Throwable.message`; the API exceptions are built from a non-null
    `message: String`, so theirs is a plain `text`. */
module Faults {
  import opened Common

  datatype Fault =
    | RateLimitException(text: string, retryAfterSeconds: int32)
    | NotFoundException(text: string)
    | ServerException(text: string)
      /** `kotlinx.coroutines.TimeoutCancellationException` */
    | TimeoutCancellation(detail: Option<string>)
      /** `java.net.SocketTimeoutException` (an `IOException`) */
    | SocketTimeout(detail: Option<string>)
      /** `java.net.UnknownHostException` (an `IOException`) */
    | UnknownHost(detail: Option<string>)
      /** `javax.net.ssl.SSLHandshakeException` (an `IOException`) */
    | SslHandshake(detail: Option<string>)
      /** any other `java.io.IOException` */
    | OtherIO(detail: Option<string>)
      /** a `NullPointerException` from a mapper dereferencing an absent field */
    | NullPointer(detail: Option<string>)
      /** an exception thrown by the database */
    | Storage(detail: Option<string>)
      /** `Exception(message)` or any class not singled out above */
    | Other(detail: Option<string>)
  {
    /** `Throwable.message`. */
    function Message(): Option<string>
    {
      match this
      case RateLimitException(t, _) => Some(t)
      case NotFoundException(t) => Some(t)
      case ServerException(t) => Some(t)
      case _ => this.detail
    }

    /** `is ApiException` (the sealed class of the domain layer). */
    predicate IsApiException()
    {
      RateLimitException? || NotFoundException? || ServerException?
    }

    /** `is java.io.IOException`. */
    predicate IsIOException()
    {
      SocketTimeout? || UnknownHost? || SslHandshake? || OtherIO?
    }
  }
}

=== FILE: launch_dao.dfy ===
/** The Room store behind `LaunchDao`: three tables keyed by their primary
    key, and the DAO's statements as functions from a store to a store or to
    the rows a query reads. `SELECT`s without a total `ORDER BY` return rows
    in an order the database chooses; that order is modelled as an
    arbitrary enumeration of the rows (`Enumerate`), so the reads are ghost. */
module LaunchDao {
  import opened Common
  import opened Entities
  import opened Sorting

  /** `cached_launches`: every row is stored under its own `id`. */
  type LaunchTable = m: map<string, CachedLaunchEntity> | forall k :: k in m ==> m[k].id == k
    witness map[]

  /** `favorite_launches`: every row is stored under its own `launchId`. */
  type FavoriteTable = m: map<string, FavoriteLaunchEntity> | forall k :: k in m ==> m[k].launchId == k
    witness map[]

  /** `cached_launch_details`: every row is stored under its own `id`. */
  type DetailTable = m: map<string, CachedLaunchDetailEntity> | forall k :: k in m ==> m[k].id == k
    witness map[]

  datatype Store = Store(launches: LaunchTable, favorites: FavoriteTable, details: DetailTable)

  const EmptyStore := Store(map[], map[], map[])

  /** `LIMIT 50` of `getCachedLaunches`. */
  const CachedLaunchesLimit := 50

  /** Some order in which a table scan may yield the elements of `s`. */
  ghost function Enumerate<T>(s: set<T>): (r: seq<T>)
    ensures multiset(r) == multiset(s)
    ensures |r| == |s|
  {
    if s == {} then []
    else
      var x :| x in s;
      [x] + Enumerate(s - {x})
  }

  // ---------------------------------------------------------------- cached_launches

  /** Some row of `rows` carries the key `k`. */
  predicate HasId(rows: seq<CachedLaunchEntity>, k: string)
  {
    exists i :: 0 <= i < |rows| && rows[i].id == k
  }

  /** No later row of `rows` carries the key of `rows[i]`. */
  predicate LastWithId(rows: seq<CachedLaunchEntity>, i: int)
    requires 0 <= i < |rows|
  {
    forall j :: i < j < |rows| ==> rows[j].id != rows[i].id
  }

  /** `@Insert(onConflict = REPLACE) insertCachedLaunches`: the rows are
      written in list order, each replacing the row with its key, so the last
      row of the batch with a given key wins. */
  function InsertCachedLaunches(s: Store, rows: seq<CachedLaunchEntity>): (r: Store)
    decreases |rows|
    ensures r.favorites == s.favorites && r.details == s.details
    ensures forall k :: k in r.launches <==> k in s.launches || HasId(rows, k)
    ensures forall i :: 0 <= i < |rows| ==> rows[i].id in r.launches
    ensures forall i :: 0 <= i < |rows| && LastWithId(rows, i) ==> r.launches[rows[i].id] == rows[i]
    ensures forall k :: k in s.launches && !HasId(rows, k) ==> r.launches[k] == s.launches[k]
  {
    if |rows| == 0 then s
    else
      var r := InsertCachedLaunches(s.(launches := s.launches[rows[0].id := rows[0]]), rows[1..]);
      HasIdCons(rows);
      r
  }

  /** The keys of a batch are its first row's and those of the rest. */
  lemma HasIdCons(rows: seq<CachedLaunchEntity>)
    requires |rows| > 0
    ensures forall k :: HasId(rows, k) <==> k == rows[0].id || HasId(rows[1..], k)
    ensures forall i :: 1 <= i < |rows| && LastWithId(rows, i) ==> LastWithId(rows[1..], i - 1)
    ensures LastWithId(rows, 0) ==> !HasId(rows[1..], rows[0].id)
  {
    forall k
      ensures HasId(rows, k) ==> k == rows[0].id || HasId(rows[1..], k)
    {
      if HasId(rows, k) && k != rows[0].id {
        var i :| 0 <= i < |rows| && rows[i].id == k;
        assert rows[1..][i - 1].id == k;
      }
    }
    forall k | HasId(rows[1..], k)
      ensures HasId(rows, k)
    {
      var i :| 0 <= i < |rows[1..]| && rows[1..][i].id == k;
      assert rows[i + 1].id == k;
    }
  }

  /** `SELECT * FROM cached_launches ORDER BY cachedAt DESC LIMIT 50`: rows
      with equal `cachedAt` come in the scan's order. */
  ghost function GetCachedLaunches(s: Store): (r: seq<CachedLaunchEntity>)
    ensures |r| == Min(CachedLaunchesLimit, |s.launches.Values|)
    // rows of the table, each at most once
    ensures multiset(r) <= multiset(s.launches.Values)
    // newest first
    ensures forall i, j :: 0 <= i < j < |r| ==> r[i].cachedAt >= r[j].cachedAt
    // a row left out is no newer than any row returned
    ensures forall row, i :: row in s.launches.Values && row !in r && 0 <= i < |r| ==> row.cachedAt <= r[i].cachedAt
  {
    var sorted := NewestFirst(Enumerate(s.launches.Values));
    NewestPrefix(s.launches.Values, sorted);
    sorted[..Min(CachedLaunchesLimit, |sorted|)]
  }

  lemma NewestPrefix(rows: set<CachedLaunchEntity>, sorted: seq<CachedLaunchEntity>)
    requires multiset(sorted) == multiset(rows) && |sorted| == |rows|
    requires forall i, j :: 0 <= i < j < |sorted| ==> sorted[i].cachedAt >= sorted[j].cachedAt
    ensures var r := sorted[..Min(CachedLaunchesLimit, |sorted|)];
      && |r| == Min(CachedLaunchesLimit, |rows|)
      && multiset(r) <= multiset(rows)
      && (forall i, j :: 0 <= i < j < |r| ==> r[i].cachedAt >= r[j].cachedAt)
      && (forall row, i :: row in rows && row !in r && 0 <= i < |r| ==> row.cachedAt <= r[i].cachedAt)
  {
    SameElements(sorted, rows);
    TopIsNewest(sorted, Min(CachedLaunchesLimit, |sorted|));
  }

  /** A list holding each element of a set once holds exactly its elements. */
  lemma SameElements<T>(xs: seq<T>, s: set<T>)
    requires multiset(xs) == multiset(s)
    ensures forall x :: x in xs <==> x in s
  {
    forall x
      ensures x in xs <==> x in s
    {
      assert x in xs <==> x in multiset(xs);
    }
  }

  function Min(a: int, b: int): int
  {
    if a <= b then a else b
  }

  function CachedAt(row: CachedLaunchEntity): int
  {
    row.cachedAt
  }

  /** The order of `ORDER BY … DESC` on an integer column. */
  predicate AtLeast(a: int, b: int)
  {
    a >= b
  }

  lemma AtLeastIsTotalOrder()
    ensures TotalOrder(AtLeast)
  {
  }

  /** Rows by `cachedAt`, newest first, ties in input order. */
  function NewestFirst(rows: seq<CachedLaunchEntity>): (r: seq<CachedLaunchEntity>)
    ensures multiset(r) == multiset(rows) && |r| == |rows|
    ensures forall i, j :: 0 <= i < j < |r| ==> r[i].cachedAt >= r[j].cachedAt
  {
    AtLeastIsTotalOrder();
    var r := SortBy(rows, CachedAt, AtLeast);
    assert forall i, j :: 0 <= i < j < |r| ==> AtLeast(CachedAt(r[i]), CachedAt(r[j]));
    r
  }

  /** Joined rows by the `addedAt` of their favorite, most recent first. */
  function RecentlyAddedFirst(s: Store, rows: seq<CachedLaunchEntity>): (r: seq<CachedLaunchEntity>)
    ensures multiset(r) == multiset(rows)
    ensures forall i, j :: 0 <= i < j < |r| ==> AddedAt(s, r[i]) >= AddedAt(s, r[j])
  {
    AtLeastIsTotalOrder();
    var key := row => AddedAt(s, row);
    var r := SortBy(rows, key, AtLeast);
    assert forall i, j :: 0 <= i < j < |r| ==> AtLeast(key(r[i]), key(r[j]));
    r
  }

  /** A prefix of a list sorted newest first is no older than the rest. */
  lemma TopIsNewest(sorted: seq<CachedLaunchEntity>, n: int)
    requires forall i, j :: 0 <= i < j < |sorted| ==> sorted[i].cachedAt >= sorted[j].cachedAt
    requires 0 <= n <= |sorted|
    ensures multiset(sorted[..n]) <= multiset(sorted)
    ensures forall i, j :: 0 <= i < j < n ==> sorted[i].cachedAt >= sorted[j].cachedAt
    ensures forall row, i :: row in sorted && row !in sorted[..n] && 0 <= i < n ==> row.cachedAt <= sorted[i].cachedAt
  {
    assert sorted == sorted[..n] + sorted[n..];
    forall row, i | row in sorted && row !in sorted[..n] && 0 <= i < n
      ensures row.cachedAt <= sorted[i].cachedAt
    {
      var j :| 0 <= j < |sorted| && sorted[j] == row;
      assert forall m :: 0 <= m < n ==> sorted[m] in sorted[..n];
    }
  }

  /** `DELETE FROM cached_launches WHERE cachedAt < :timestamp`. */
  function DeleteOldCachedLaunches(s: Store, timestamp: int): (r: Store)
    ensures r.favorites == s.favorites && r.details == s.details
    ensures forall k :: k in r.launches <==> k in s.launches && s.launches[k].cachedAt >= timestamp
    ensures forall k :: k in r.launches ==> r.launches[k] == s.launches[k]
  {
    s.(launches := map k | k in s.launches && s.launches[k].cachedAt >= timestamp :: s.launches[k])
  }

  // ---------------------------------------------------------------- favorite_launches

  /** `@Insert(onConflict = REPLACE) addToFavorites`. */
  function AddToFavorites(s: Store, favorite: FavoriteLaunchEntity): (r: Store)
    ensures r.launches == s.launches && r.details == s.details
    ensures r.favorites.Keys == s.favorites.Keys + {favorite.launchId}
    ensures r.favorites[favorite.launchId] == favorite
    ensures forall k :: k in s.favorites && k != favorite.launchId ==> r.favorites[k] == s.favorites[k]
  {
    s.(favorites := s.favorites[favorite.launchId := favorite])
  }

  /** `DELETE FROM favorite_launches WHERE launchId = :launchId`. */
  function RemoveFromFavorites(s: Store, launchId: string): (r: Store)
    ensures r.launches == s.launches && r.details == s.details
    ensures r.favorites.Keys == s.favorites.Keys - {launchId}
    ensures forall k :: k in r.favorites ==> r.favorites[k] == s.favorites[k]
  {
    s.(favorites := s.favorites - {launchId})
  }

  /** `SELECT * FROM favorite_launches`, in scan order. */
  ghost function GetAllFavorites(s: Store): (r: seq<FavoriteLaunchEntity>)
    ensures multiset(r) == multiset(s.favorites.Values)
  {
    Enumerate(s.favorites.Values)
  }

  /** `SELECT * FROM favorite_launches WHERE launchId = :launchId`. */
  function IsFavorite(s: Store, launchId: string): (r: Option<FavoriteLaunchEntity>)
    ensures r.Some? <==> launchId in s.favorites
    ensures r.Some? ==> r.value.launchId == launchId && r.value in s.favorites.Values
  {
    if launchId in s.favorites then Some(s.favorites[launchId]) else None
  }

  /** The cached rows that have a favorite row. */
  ghost function FavoriteRows(s: Store): set<CachedLaunchEntity>
  {
    set row | row in s.launches.Values && row.id in s.favorites
  }

  /** The `addedAt` of the favorite row joined to `row`. */
  function AddedAt(s: Store, row: CachedLaunchEntity): int
  {
    if row.id in s.favorites then s.favorites[row.id].addedAt else 0
  }

  /** `SELECT cached_launches.* FROM cached_launches INNER JOIN
      favorite_launches ON id = launchId ORDER BY addedAt DESC`. */
  ghost function GetFavoriteLaunches(s: Store): (r: seq<CachedLaunchEntity>)
    // exactly the joined rows, each once; favorites without a cached row drop out
    ensures forall row :: row in r <==> row in s.launches.Values && row.id in s.favorites
    ensures multiset(r) == multiset(FavoriteRows(s))
    ensures forall i, j :: 0 <= i < j < |r| ==> r[i].id != r[j].id
    // most recently added first
    ensures forall i, j :: 0 <= i < j < |r| ==>
              s.favorites[r[i].id].addedAt >= s.favorites[r[j].id].addedAt
  {
    var r := RecentlyAddedFirst(s, Enumerate(FavoriteRows(s)));
    SameElements(r, FavoriteRows(s));
    FavoriteRowsDrawn(s, r);
    RowsOfTable(s.launches, r);
    r
  }

  /** Rows drawn once each from the join are drawn from the table. */
  lemma FavoriteRowsDrawn(s: Store, rows: seq<CachedLaunchEntity>)
    requires multiset(rows) == multiset(FavoriteRows(s))
    ensures multiset(rows) <= multiset(s.launches.Values)
  {
    forall row
      ensures multiset(rows)[row] <= multiset(s.launches.Values)[row]
    {
      if row in FavoriteRows(s) {
        assert row in s.launches.Values;
      }
    }
  }

  // ---------------------------------------------------------------- cached_launch_details

  /** `@Insert(onConflict = REPLACE) insertCachedLaunchDetail`. */
  function InsertCachedLaunchDetail(s: Store, detail: CachedLaunchDetailEntity): (r: Store)
    ensures r.launches == s.launches && r.favorites == s.favorites
    ensures r.details.Keys == s.details.Keys + {detail.id}
    ensures r.details[detail.id] == detail
    ensures forall k :: k in s.details && k != detail.id ==> r.details[k] == s.details[k]
  {
    s.(details := s.details[detail.id := detail])
  }

  /** `SELECT * FROM cached_launch_details WHERE id = :launchId`. */
  function GetCachedLaunchDetail(s: Store, launchId: string): (r: Option<CachedLaunchDetailEntity>)
    ensures r.Some? <==> launchId in s.details
    ensures r.Some? ==> r.value.id == launchId && r.value in s.details.Values
  {
    if launchId in s.details then Some(s.details[launchId]) else None
  }

  /** `DELETE FROM cached_launch_details WHERE cachedAt < :timestamp`. */
  function DeleteOldCachedLaunchDetails(s: Store, timestamp: int): (r: Store)
    ensures r.launches == s.launches && r.favorites == s.favorites
    ensures forall k :: k in r.details <==> k in s.details && s.details[k].cachedAt >= timestamp
    ensures forall k :: k in r.details ==> r.details[k] == s.details[k]
  {
    s.(details := map k | k in s.details && s.details[k].cachedAt >= timestamp :: s.details[k])
  }

  // ---------------------------------------------------------------- rows and keys

  /** A row of the table is stored under its own id. */
  lemma RowsOfTable(t: LaunchTable, rows: seq<CachedLaunchEntity>)
    requires multiset(rows) <= multiset(t.Values)
    ensures forall i :: 0 <= i < |rows| ==> rows[i].id in t && t[rows[i].id] == rows[i]
    // a row is drawn at most once, so no id repeats
    ensures forall i, j :: 0 <= i < j < |rows| ==> rows[i].id != rows[j].id
  {
    forall i | 0 <= i < |rows|
      ensures rows[i].id in t && t[rows[i].id] == rows[i]
    {
      assert rows[i] in multiset(rows);
      assert rows[i] in t.Values;
    }
    forall i, j | 0 <= i < j < |rows|
      ensures rows[i].id != rows[j].id
    {
      if rows[i].id == rows[j].id {
        DrawnTwice(rows, i, j);
        assert false;
      }
    }
  }

  /** A row at two positions of a sequence occurs twice in its multiset. */
  lemma DrawnTwice<T>(xs: seq<T>, i: int, j: int)
    requires 0 <= i < j < |xs| && xs[i] == xs[j]
    ensures multiset(xs)[xs[i]] >= 2
  {
    assert xs == xs[..j] + xs[j..];
    assert xs[..j][i] == xs[i];
    assert xs[j..][0] == xs[i];
  }

  /** The rows of the favorites join are the cached rows of favorite ids. */
  lemma FavoriteRowsOfTable(s: Store, rows: seq<CachedLaunchEntity>)
    requires forall row :: row in rows <==> row in s.launches.Values && row.id in s.favorites
    ensures forall i :: 0 <= i < |rows| ==>
              rows[i].id in s.favorites && rows[i].id in s.launches && s.launches[rows[i].id] == rows[i]
    ensures forall k :: k in s.favorites && k in s.launches ==> s.launches[k] in rows
  {
    forall k | k in s.favorites && k in s.launches
      ensures s.launches[k] in rows
    {
      assert s.launches[k] in s.launches.Values;
    }
  }

  // ---------------------------------------------------------------- laws

  /** Reading a favorite back after adding it, and after removing it. */
  lemma FavoriteRoundTrip(s: Store, favorite: FavoriteLaunchEntity, other: string)
    ensures IsFavorite(AddToFavorites(s, favorite), favorite.launchId) == Some(favorite)
    ensures IsFavorite(RemoveFromFavorites(s, favorite.launchId), favorite.launchId).None?
    ensures other != favorite.launchId ==>
              && IsFavorite(AddToFavorites(s, favorite), other) == IsFavorite(s, other)
              && IsFavorite(RemoveFromFavorites(s, favorite.launchId), other) == IsFavorite(s, other)
  {
  }

  /** Removing twice is removing once; removing after adding forgets the add. */
  lemma RemoveFromFavoritesIdempotent(s: Store, favorite: FavoriteLaunchEntity)
    ensures RemoveFromFavorites(RemoveFromFavorites(s, favorite.launchId), favorite.launchId)
            == RemoveFromFavorites(s, favorite.launchId)
    ensures RemoveFromFavorites(AddToFavorites(s, favorite), favorite.launchId)
            == RemoveFromFavorites(s, favorite.launchId)
  {
    assert RemoveFromFavorites(AddToFavorites(s, favorite), favorite.launchId).favorites
           == RemoveFromFavorites(s, favorite.launchId).favorites;
  }

  /** Two evictions are one eviction at the later cut-off. */
  lemma DeleteOldCachedLaunchesComposes(s: Store, t1: int, t2: int)
    ensures DeleteOldCachedLaunches(DeleteOldCachedLaunches(s, t1), t2)
            == DeleteOldCachedLaunches(s, if t1 <= t2 then t2 else t1)
  {
    assert DeleteOldCachedLaunches(DeleteOldCachedLaunches(s, t1), t2).launches
           == DeleteOldCachedLaunches(s, if t1 <= t2 then t2 else t1).launches;
  }

  /** Two evictions of details are one eviction at the later cut-off. */
  lemma DeleteOldCachedLaunchDetailsComposes(s: Store, t1: int, t2: int)
    ensures DeleteOldCachedLaunchDetails(DeleteOldCachedLaunchDetails(s, t1), t2)
            == DeleteOldCachedLaunchDetails(s, if t1 <= t2 then t2 else t1)
  {
    assert DeleteOldCachedLaunchDetails(DeleteOldCachedLaunchDetails(s, t1), t2).details
           == DeleteOldCachedLaunchDetails(s, if t1 <= t2 then t2 else t1).details;
  }

  /** A detail row written and read back by its id is the row written. */
  lemma DetailRoundTrip(s: Store, detail: CachedLaunchDetailEntity)
    ensures GetCachedLaunchDetail(InsertCachedLaunchDetail(s, detail), detail.id) == Some(detail)
  {
  }
}

=== FILE: launch_detail_mapper.dfy ===
/** Wire detail to domain detail (`LaunchDetailMapper`). Top-level names and
    times get defaults, a missing provider becomes a placeholder provider,
    nested objects and lists are copied field for field. Two things throw a
    `NullPointerException`, modelled as `None`: an absent `status`, `pad`,
    `pad.location` or, for a present rocket, `rocket.configuration`, which
    is dereferenced unguarded; and an absent name (or location country code)
    of a nested object, which reaches a non-null parameter of a domain
    constructor and fails its null check. */
module LaunchDetailMapper {
  import opened Common
  import opened Domain
  import opened Dtos

  const UnknownId := "unknown"
  const UnnamedLaunch := "Unnamed Launch"
  const UnknownStatus := "Unknown"
  const UnknownMission := "Unknown Mission"

  /** The provider used when the wire object has none. */
  const UnknownProvider := LaunchServiceProvider(0, "Unknown", None, None, None, None, None)

  // ---------------------------------------------------------------- what maps

  predicate AgenciesNamed(dtos: seq<AgencyDto>)
  {
    forall i :: 0 <= i < |dtos| ==> dtos[i].name.Some?
  }

  /** A `null` list is fine; a present one needs every agency named. */
  predicate AgencyListNamed(dtos: Option<seq<AgencyDto>>)
  {
    dtos.Some? ==> AgenciesNamed(dtos.value)
  }

  predicate RocketNamed(dto: RocketDetailDto)
  {
    dto.configuration.Some? && dto.configuration.value.name.Some?
  }

  predicate LocationNamed(dto: LocationDetailDto)
  {
    dto.name.Some? && dto.countryCode.Some?
  }

  predicate PadNamed(dto: PadDetailDto)
  {
    dto.name.Some? && dto.location.Some? && LocationNamed(dto.location.value)
  }

  predicate ProgramNamed(dto: ProgramDto)
  {
    dto.name.Some? && AgencyListNamed(dto.agencies)
  }

  predicate ProgramsNamed(dtos: seq<ProgramDto>)
  {
    forall i :: 0 <= i < |dtos| ==> ProgramNamed(dtos[i])
  }

  /** The mapper reaches every object it dereferences and hands every
      non-null domain parameter a value. */
  predicate Dereferenceable(dto: LaunchDetailDto)
  {
    && dto.status.Some?
    && dto.pad.Some? && PadNamed(dto.pad.value)
    && (dto.launchServiceProvider.Some? ==> dto.launchServiceProvider.value.name.Some?)
    && (dto.mission.Some? ==> AgencyListNamed(dto.mission.value.agencies))
    && (dto.rocket.Some? ==> RocketNamed(dto.rocket.value))
    && (dto.program.Some? ==> ProgramsNamed(dto.program.value))
  }

  // ---------------------------------------------------------------- nested objects

  /** A `null` name reaches the non-null `name` parameter of the domain
      provider's constructor, whose parameter check throws: `None`. */
  function MapLaunchServiceProvider(dto: LaunchServiceProviderDto): (p: Option<LaunchServiceProvider>)
    ensures p.Some? <==> dto.name.Some?
    ensures p.Some? ==> p.value.id == dto.id && p.value.name == dto.name.value
    ensures p.Some? ==> p.value.kind == dto.kind && p.value.countryCode == dto.countryCode
    ensures p.Some? ==> p.value.description == dto.description && p.value.website == dto.website
    ensures p.Some? ==> p.value.wikiUrl == dto.wikiUrl
  {
    match dto.name
    case Some(name) => Some(LaunchServiceProvider(dto.id, name, dto.kind, dto.countryCode, dto.description, dto.website, dto.wikiUrl))
    case None => None
  }

  /** Every orbit field is nullable on both sides, so the orbit is copied
      as it is. */
  function MapOrbit(dto: OrbitDto): (o: Orbit)
    ensures o.id == dto.id && o.name == dto.name && o.abbreviation == dto.abbreviation
  {
    Orbit(dto.id, dto.name, dto.abbreviation)
  }

  function MapAgency(dto: AgencyDto): (a: Option<Agency>)
    ensures a.Some? <==> dto.name.Some?
    ensures a.Some? ==> a.value.id == dto.id && a.value.name == dto.name.value
    ensures a.Some? ==> a.value.kind == dto.kind && a.value.countryCode == dto.countryCode
    ensures a.Some? ==> a.value.description == dto.description
  {
    match dto.name
    case Some(name) => Some(Agency(dto.id, name, dto.kind, dto.countryCode, dto.description))
    case None => None
  }

  /** `agencies.map { mapAgency(it) }`: all of them, in order, or the
      exception of the first unnamed one. */
  function MapAgencies(dtos: seq<AgencyDto>): (r: Option<seq<Agency>>)
    ensures r.Some? <==> AgenciesNamed(dtos)
    ensures r.Some? ==> |r.value| == |dtos|
    ensures r.Some? ==> forall i :: 0 <= i < |dtos| ==> Some(r.value[i]) == MapAgency(dtos[i])
  {
    if |dtos| == 0 then Some([])
    else
      match MapAgency(dtos[0])
      case None => None
      case Some(head) =>
        match MapAgencies(dtos[1..])
        case None => None
        case Some(tail) => Some([head] + tail)
  }

  /** `agencies?.map { … }`. The outer `None` is the exception; the inner
      `Option` is the nullable list, `null` staying `null`. */
  function MapAgencyList(dtos: Option<seq<AgencyDto>>): (r: Option<Option<seq<Agency>>>)
    ensures r.Some? <==> AgencyListNamed(dtos)
    ensures r.Some? ==> (r.value.Some? <==> dtos.Some?)
    ensures r.Some? && dtos.Some? ==> |r.value.value| == |dtos.value|
    ensures r.Some? && dtos.Some? ==> forall i :: 0 <= i < |dtos.value| ==> r.value.value[i].id == dtos.value[i].id
    ensures r.Some? && dtos.Some? ==> forall i :: 0 <= i < |dtos.value| ==> Some(r.value.value[i]) == MapAgency(dtos.value[i])
  {
    match dtos
    case None => Some(None)
    case Some(xs) =>
      match MapAgencies(xs)
      case Some(agencies) => Some(Some(agencies))
      case None => None
  }

  function MapMissionDetail(dto: MissionDetailDto): (m: Option<MissionDetail>)
    ensures m.Some? <==> AgencyListNamed(dto.agencies)
    ensures m.Some? ==> m.value.id == dto.id && m.value.name == dto.name.GetOr(UnknownMission)
    ensures m.Some? ==> m.value.description == dto.description && m.value.kind == dto.kind
    ensures m.Some? ==> (m.value.orbit.Some? <==> dto.orbit.Some?)
    ensures m.Some? && dto.orbit.Some? ==> m.value.orbit.value == MapOrbit(dto.orbit.value)
    ensures m.Some? ==> (m.value.agencies.Some? <==> dto.agencies.Some?)
    ensures m.Some? ==> Some(m.value.agencies) == MapAgencyList(dto.agencies)
  {
    match MapAgencyList(dto.agencies)
    case None => None
    case Some(agencies) =>
      Some(MissionDetail(
        id := dto.id,
        name := dto.name.GetOr(UnknownMission),
        description := dto.description,
        kind := dto.kind,
        orbit := (match dto.orbit case Some(o) => Some(MapOrbit(o)) case None => None),
        agencies := agencies))
  }

  function MapRocketConfigurationDetail(dto: RocketConfigurationDetailDto): (c: Option<RocketConfigurationDetail>)
    ensures c.Some? <==> dto.name.Some?
    ensures c.Some? ==> c.value.id == dto.id && c.value.name == dto.name.value
    ensures c.Some? ==> c.value.family == dto.family && c.value.variant == dto.variant
    ensures c.Some? ==> c.value.fullName == dto.fullName && c.value.description == dto.description
    ensures c.Some? ==> c.value.launchMass == dto.launchMass
    ensures c.Some? ==> c.value.length == dto.length && c.value.diameter == dto.diameter
    ensures c.Some? ==> c.value.imageUrl == dto.imageUrl && c.value.infoUrl == dto.infoUrl
    ensures c.Some? ==> c.value.wikiUrl == dto.wikiUrl
  {
    match dto.name
    case Some(name) =>
      Some(RocketConfigurationDetail(
        dto.id, name, dto.family, dto.variant, dto.fullName, dto.description,
        dto.launchMass, dto.length, dto.diameter, dto.imageUrl, dto.infoUrl, dto.wikiUrl))
    case None => None
  }

  /** `None` when the configuration or its name is absent. */
  function MapRocketDetail(dto: RocketDetailDto): (r: Option<RocketDetail>)
    ensures r.Some? <==> RocketNamed(dto)
    ensures r.Some? ==> r.value.id == dto.id
    ensures r.Some? ==> Some(r.value.configuration) == MapRocketConfigurationDetail(dto.configuration.value)
  {
    match dto.configuration
    case None => None
    case Some(c) =>
      match MapRocketConfigurationDetail(c)
      case Some(configuration) => Some(RocketDetail(dto.id, configuration))
      case None => None
  }

  function MapLocationDetail(dto: LocationDetailDto): (l: Option<LocationDetail>)
    ensures l.Some? <==> LocationNamed(dto)
    ensures l.Some? ==> l.value.id == dto.id && l.value.name == dto.name.value
    ensures l.Some? ==> l.value.countryCode == dto.countryCode.value
    ensures l.Some? ==> l.value.description == dto.description && l.value.mapImage == dto.mapImage
    ensures l.Some? ==> l.value.totalLaunchCount == dto.totalLaunchCount
    ensures l.Some? ==> l.value.totalLandingCount == dto.totalLandingCount
  {
    if LocationNamed(dto) then
      Some(LocationDetail(dto.id, dto.name.value, dto.countryCode.value, dto.description, dto.mapImage,
                          dto.totalLaunchCount, dto.totalLandingCount))
    else None
  }

  /** `None` when the pad's name or its location (or the location's name or
      country code) is absent. */
  function MapPadDetail(dto: PadDetailDto): (p: Option<PadDetail>)
    ensures p.Some? <==> PadNamed(dto)
    ensures p.Some? ==> p.value.id == dto.id && p.value.name == dto.name.value
    ensures p.Some? ==> p.value.mapUrl == dto.mapUrl && p.value.totalLaunchCount == dto.totalLaunchCount
    ensures p.Some? ==> Some(p.value.location) == MapLocationDetail(dto.location.value)
  {
    if PadNamed(dto) then
      Some(PadDetail(dto.id, dto.name.value, MapLocationDetail(dto.location.value).value,
                     dto.mapUrl, dto.totalLaunchCount))
    else None
  }

  function MapProgram(dto: ProgramDto): (p: Option<Program>)
    ensures p.Some? <==> ProgramNamed(dto)
    ensures p.Some? ==> p.value.id == dto.id && p.value.name == dto.name.value
    ensures p.Some? ==> p.value.description == dto.description
    ensures p.Some? ==> p.value.imageUrl == dto.imageUrl && p.value.wikiUrl == dto.wikiUrl
    ensures p.Some? ==> (p.value.agencies.Some? <==> dto.agencies.Some?)
    ensures p.Some? ==> Some(p.value.agencies) == MapAgencyList(dto.agencies)
  {
    if ProgramNamed(dto) then
      Some(Program(dto.id, dto.name.value, dto.description, MapAgencyList(dto.agencies).value,
                   dto.imageUrl, dto.wikiUrl))
    else None
  }

  /** `program.map { mapProgram(it) }`: all of them, in order, or the
      exception of the first that cannot be mapped. */
  function MapPrograms(dtos: seq<ProgramDto>): (r: Option<seq<Program>>)
    ensures r.Some? <==> ProgramsNamed(dtos)
    ensures r.Some? ==> |r.value| == |dtos|
    ensures r.Some? ==> forall i :: 0 <= i < |dtos| ==> Some(r.value[i]) == MapProgram(dtos[i])
  {
    if |dtos| == 0 then Some([])
    else
      match MapProgram(dtos[0])
      case None => None
      case Some(head) =>
        match MapPrograms(dtos[1..])
        case None => None
        case Some(tail) => Some([head] + tail)
  }

  // ---------------------------------------------------------------- the detail

  function DtoToDomain(dto: LaunchDetailDto): (r: Option<LaunchDetail>)
    ensures r.Some? <==> Dereferenceable(dto)
    // defaults for the top-level scalars
    ensures r.Some? ==> r.value.id == dto.id.GetOr(UnknownId) && r.value.name == dto.name.GetOr(UnnamedLaunch)
    ensures r.Some? ==> r.value.status == LaunchStatus(dto.status.value.name.GetOr(UnknownStatus), dto.status.value.description)
    ensures r.Some? ==> r.value.windowStart == dto.windowStart.GetOr("") && r.value.windowEnd == dto.windowEnd.GetOr("")
    ensures r.Some? ==> r.value.net == dto.net.GetOr("")
    // provider: copied, or the placeholder
    ensures r.Some? && dto.launchServiceProvider.Some? ==>
              Some(r.value.launchServiceProvider) == MapLaunchServiceProvider(dto.launchServiceProvider.value)
    ensures r.Some? && dto.launchServiceProvider.None? ==> r.value.launchServiceProvider == UnknownProvider
    // nested objects present iff present on the wire
    ensures r.Some? ==> (r.value.mission.Some? <==> dto.mission.Some?)
    ensures r.Some? && dto.mission.Some? ==> r.value.mission == MapMissionDetail(dto.mission.value)
    ensures r.Some? ==> (r.value.rocket.Some? <==> dto.rocket.Some?)
    ensures r.Some? && dto.rocket.Some? ==> r.value.rocket == MapRocketDetail(dto.rocket.value)
    ensures r.Some? ==> Some(r.value.pad) == MapPadDetail(dto.pad.value)
    // lists mapped element-wise, null kept null
    ensures r.Some? ==> (r.value.program.Some? <==> dto.program.Some?)
    ensures r.Some? && dto.program.Some? ==> r.value.program == MapPrograms(dto.program.value)
    // passed through
    ensures r.Some? ==> r.value.image == dto.image && r.value.infographic == dto.infographic
    ensures r.Some? ==> r.value.videoUrls == dto.videoUrls && r.value.description == dto.description
    ensures r.Some? ==> r.value.holdReason == dto.holdReason && r.value.failReason == dto.failReason
  {
    if !Dereferenceable(dto) then None
    else
      var status := dto.status.value;
      Some(LaunchDetail(
        id := dto.id.GetOr(UnknownId),
        name := dto.name.GetOr(UnnamedLaunch),
        status := LaunchStatus(status.name.GetOr(UnknownStatus), status.description),
        launchServiceProvider :=
          (match dto.launchServiceProvider
           case Some(p) => MapLaunchServiceProvider(p).value
           case None => UnknownProvider),
        mission := (match dto.mission case Some(m) => MapMissionDetail(m) case None => None),
        rocket := (match dto.rocket case Some(rk) => MapRocketDetail(rk) case None => None),
        pad := MapPadDetail(dto.pad.value).value,
        windowStart := dto.windowStart.GetOr(""),
        windowEnd := dto.windowEnd.GetOr(""),
        net := dto.net.GetOr(""),
        image := dto.image,
        infographic := dto.infographic,
        program := (match dto.program case Some(ps) => MapPrograms(ps) case None => None),
        videoUrls := dto.videoUrls,
        holdReason := dto.holdReason,
        failReason := dto.failReason,
        description := dto.description))
  }
}

=== FILE: launch_detail_view_model.dfy ===
/** `LaunchDetailViewModel`: the detail screen of one launch. As for the
    list screen, each coroutine is one atomic step whose awaited result or
    exception is a parameter. */
module LaunchDetailViewModel {
  import opened Common
  import opened Domain
  import opened Faults
  import opened Strings
  import Repo = LaunchRepository
  import Dao = LaunchDao
  import Dtos

  /** `LaunchDetailState`. */
  datatype LaunchDetailState =
    | Loading
    | Success(launchDetail: LaunchDetail)
    | Error(message: string)

  /** The launch id from the navigation arguments (`""` when absent), the
      published state and the published favorite flag. */
  datatype DetailVm = DetailVm(launchId: string, state: LaunchDetailState, isFavorite: bool)

  const InvalidIdText := "Неверный ID запуска"
  const RateLimitMiddleText := " Лимит восстановится через "
  const RateLimitTailText := " минут."
  const NoInternetText := "Нет подключения к интернету"
  const ServerNotRespondingText := "Сервер не отвечает"
  const LaunchNotFoundText := "Запуск не найден"
  const LoadDetailFailedText := "Не удалось загрузить данные о запуске"

  /** Kotlin's `Int` division by 60, which truncates toward zero. */
  function MinutesOf(seconds: int32): (m: int32)
    ensures seconds >= 0 ==> 0 <= m as int * 60 <= seconds as int < m as int * 60 + 60
    ensures seconds < 0 ==> m as int * 60 - 60 < seconds as int <= m as int * 60 <= 0
  {
    if seconds >= 0 then (seconds as int / 60) as int32
    else (-((-(seconds as int)) / 60)) as int32
  }

  /** The texts `loadLaunchDetail` shows for an exception, in the order of
      its catch clauses. The API exceptions always carry a message, so the
      `?:` defaults of those clauses never apply. */
  function DetailErrorMessage(e: Fault): (r: string)
    ensures e.RateLimitException? ==>
              r == e.text + RateLimitMiddleText + IntToDecimal(MinutesOf(e.retryAfterSeconds) as int) + RateLimitTailText
    ensures (e.NotFoundException? || e.ServerException?) ==> r == e.text
    ensures e.UnknownHost? ==> r == NoInternetText
    ensures e.SocketTimeout? ==> r == ServerNotRespondingText
    ensures !(e.IsApiException() || e.UnknownHost? || e.SocketTimeout?) ==>
              (r == LaunchNotFoundText <==> e.Message().Some? && Contains(e.Message().value, "404"))
    ensures !(e.IsApiException() || e.UnknownHost? || e.SocketTimeout?) ==>
              (r == LoadDetailFailedText <==> !(e.Message().Some? && Contains(e.Message().value, "404")))
  {
    match e
    case RateLimitException(text, seconds) =>
      text + RateLimitMiddleText + IntToDecimal(MinutesOf(seconds) as int) + RateLimitTailText
    case NotFoundException(text) => text
    case ServerException(text) => text
    case UnknownHost(_) => NoInternetText
    case SocketTimeout(_) => ServerNotRespondingText
    case _ =>
      match e.Message()
      case Some(m) => if Contains(m, "404") then LaunchNotFoundText else LoadDetailFailedText
      case None => LoadDetailFailedText
  }

  /** `loadLaunchDetail`: the loaded detail, or the classified error. The
      intermediate `Loading` is overwritten within the same step. */
  function LoadLaunchDetail(vm: DetailVm, result: Result<LaunchDetail, Fault>): (r: DetailVm)
    ensures r.launchId == vm.launchId && r.isFavorite == vm.isFavorite
    ensures r.state.Success? <==> result.Success?
    ensures result.Success? ==> r.state.launchDetail == result.value
    ensures result.Failure? ==> r.state == Error(DetailErrorMessage(result.error))
  {
    match result
    case Success(detail) => vm.(state := LaunchDetailState.Success(detail))
    case Failure(e) => vm.(state := Error(DetailErrorMessage(e)))
  }

  /** `checkFavoriteStatus`: an exception leaves the flag as it was. */
  function CheckFavoriteStatus(vm: DetailVm, result: Result<bool, Fault>): (r: DetailVm)
    ensures r.launchId == vm.launchId && r.state == vm.state
    ensures result.Success? ==> r.isFavorite == result.value
    ensures result.Failure? ==> r.isFavorite == vm.isFavorite
  {
    match result
    case Success(b) => vm.(isFavorite := b)
    case Failure(_) => vm
  }

  /** `init`: with an id, the detail load and then the favorite check; with
      none, the invalid-id error and no load at all. */
  function Init(savedLaunchId: Option<string>, detail: Result<LaunchDetail, Fault>, favorite: Result<bool, Fault>)
    : (r: DetailVm)
    ensures r.launchId == savedLaunchId.GetOr("")
    ensures r.launchId == "" ==> r == DetailVm("", Error(InvalidIdText), false)
    ensures r.launchId != "" ==>
              && (r.state.Success? <==> detail.Success?)
              && (detail.Success? ==> r.state.launchDetail == detail.value)
              && (detail.Failure? ==> r.state == Error(DetailErrorMessage(detail.error)))
              && (r.isFavorite <==> favorite == Result.Success(true))
  {
    var launchId := savedLaunchId.GetOr("");
    var vm := DetailVm(launchId, Loading, false);
    if launchId != "" then CheckFavoriteStatus(LoadLaunchDetail(vm, detail), favorite)
    else vm.(state := Error(InvalidIdText))
  }

  /** `toggleFavorite`: `outcome` is what the remove call (for a favorite)
      or the add call (otherwise) did; the flag flips only after success. */
  function ToggleFavorite(vm: DetailVm, outcome: Outcome<Fault>): (r: DetailVm)
    ensures r.launchId == vm.launchId && r.state == vm.state
    ensures r.isFavorite <==> (if outcome.Pass? then !vm.isFavorite else vm.isFavorite)
  {
    match outcome
    case Pass => vm.(isFavorite := !vm.isFavorite)
    case Fail(_) => vm
  }

  /** `retry`: reloads the detail when there is an id. */
  function Retry(vm: DetailVm, result: Result<LaunchDetail, Fault>): (r: DetailVm)
    ensures vm.launchId == "" ==> r == vm
    ensures vm.launchId != "" ==> r == LoadLaunchDetail(vm, result)
  {
    if vm.launchId != "" then LoadLaunchDetail(vm, result) else vm
  }

  // ---------------------------------------------------------------- laws

  /** A rate-limit message states the whole minutes left, rounded down. */
  lemma RateLimitMinutes(text: string, seconds: int32)
    requires seconds >= 0
    ensures exists m: nat :: m * 60 <= seconds as int < m * 60 + 60 &&
              DetailErrorMessage(RateLimitException(text, seconds))
              == text + RateLimitMiddleText + NatToDecimal(m) + RateLimitTailText
  {
    var m: nat := MinutesOf(seconds) as int;
    assert IntToDecimal(m) == NatToDecimal(m);
  }

  /** Without an id, no sequence of retries changes the screen; in
      particular the invalid-id error `Init` shows for a missing id stays. */
  lemma {:induction false} InvalidIdIsFinal(vm: DetailVm, results: seq<Result<LaunchDetail, Fault>>)
    requires vm.launchId == ""
    ensures RetryAll(vm, results) == vm
    decreases |results|
  {
    if |results| > 0 {
      InvalidIdIsFinal(Retry(vm, results[0]), results[1..]);
    }
  }

  function RetryAll(vm: DetailVm, results: seq<Result<LaunchDetail, Fault>>): DetailVm
    decreases |results|
  {
    if |results| == 0 then vm else RetryAll(Retry(vm, results[0]), results[1..])
  }

  /** What the detail screen shows for an exception re-thrown by
      `getLaunchDetail`: the repository turns every exception into a plain
      `Exception` with a text of its own, so only the last catch clause
      ever runs and the screen shows "launch not found" exactly when the
      original exception was in the catch-all class and its message held
      "404", and the generic failure text otherwise. The no-internet and
      server-timeout texts of the screen are never shown for it. */
  lemma RepositoryFaultShownAs(e: Fault)
    ensures DetailErrorMessage(Repo.MapToUserFriendlyException(e))
            == if !(e.TimeoutCancellation? || e.SocketTimeout? || e.UnknownHost? || e.SslHandshake?)
                  && e.Message().Some? && Contains(e.Message().value, "404")
               then LaunchNotFoundText else LoadDetailFailedText
  {
    var text := Repo.MapToUserFriendlyException(e).detail.value;
    PlainFaultShownAs(text);
    if e.TimeoutCancellation? || e.SocketTimeout? || e.UnknownHost? || e.SslHandshake? {
      FixedTextsLackDigits();
    } else {
      var m := e.Message().GetOr(Repo.UnknownErrorText);
      PrefixLacksDigits();
      ContainsAfterPrefix(Repo.LoadFailedPrefix, m, "404");
      if e.Message().None? {
        FixedTextsLackDigits();
      }
    }
  }

  /** A plain `Exception` lands in the last catch clause. */
  lemma PlainFaultShownAs(text: string)
    ensures DetailErrorMessage(Other(Some(text)))
            == if Contains(text, "404") then LaunchNotFoundText else LoadDetailFailedText
  {
  }

  lemma PrefixLacksDigits()
    ensures '4' !in Repo.LoadFailedPrefix
  {
  }

  /** None of the repository's fixed texts mentions "404". */
  lemma FixedTextsLackDigits()
    ensures !Contains(Repo.ServerNotRespondingText, "404")
    ensures !Contains(Repo.NoInternetText, "404")
    ensures !Contains(Repo.SecurityText, "404")
    ensures !Contains(Repo.UnknownErrorText, "404")
  {
    ServerTextLacksDigits();
    LacksDigits(Repo.NoInternetText);
    LacksDigits(Repo.SecurityText);
    LacksDigits(Repo.UnknownErrorText);
  }

  lemma ServerTextLacksDigits()
    ensures !Contains(Repo.ServerNotRespondingText, "404")
  {
    var a := "Сервер не отвежает. ";
    var b := "Проверьте подключение к интернету";
    assert '4' !in a;
    assert '4' !in b;
    assert Repo.ServerNotRespondingText == a + b;
    NotContains(a + b, "404");
  }

  lemma LacksDigits(t: string)
    requires t == Repo.NoInternetText || t == Repo.SecurityText || t == Repo.UnknownErrorText
    ensures !Contains(t, "404")
  {
    assert '4' !in t;
    NotContains(t, "404");
  }

  /** The detail screen loading through the real repository: it shows the
      fetched detail, else the cached one, else one of two texts. */
  lemma LoadThroughRepository(vm: DetailVm, s: Dao.Store, env: Repo.Env, remote: Repo.Remote<Dtos.LaunchDetailDto>)
    ensures var r := LoadLaunchDetail(vm, Repo.GetLaunchDetail(s, env, vm.launchId, remote).value);
      && (r.state.Error? <==> !Repo.DetailFetched(remote) && Repo.GetCachedLaunchDetail(s, env, vm.launchId).None?)
      && (r.state.Error? ==> r.state.message == LaunchNotFoundText || r.state.message == LoadDetailFailedText)
  {
    var after := Repo.GetLaunchDetail(s, env, vm.launchId, remote);
    if after.value.Failure? {
      RepositoryFaultShownAs(Repo.CaughtFault(env, remote));
    }
  }

  /** `checkFavoriteStatus` through the real repository: the repository
      answers `false` when its query throws, so the screen's catch clause
      never runs and the flag reads "not a favorite" on a failed query. */
  lemma CheckThroughRepository(vm: DetailVm, s: Dao.Store, env: Repo.Env)
    ensures CheckFavoriteStatus(vm, Result.Success(Repo.IsFavorite(s, env, vm.launchId))).isFavorite
            <==> Repo.isFavorite !in env.failing && vm.launchId in s.favorites
  {
  }

  /** `toggleFavorite` through the real repository keeps the flag equal to
      the favorites table whether the call succeeds or throws. */
  lemma ToggleKeepsFlagInSync(vm: DetailVm, s: Dao.Store, env: Repo.Env)
    requires vm.isFavorite <==> vm.launchId in s.favorites
    ensures var call := if vm.isFavorite then Repo.RemoveFromFavorites(s, env, vm.launchId)
                        else Repo.AddToFavorites(s, env, vm.launchId);
      ToggleFavorite(vm, call.value).isFavorite <==> vm.launchId in call.store.favorites
  {
  }
}

=== FILE: launch_mapper.dfy ===
/** Wire summary to domain summary (`LaunchMapper.dtoToDomain`). Absent
    optional names are replaced by fixed defaults. Two things throw a
    `NullPointerException`, modelled as `None`: an absent `status`, `pad`,
    `pad.location` or (for a present rocket) `rocket.configuration`, which is
    dereferenced unguarded; and an absent `id`, `name` or `net`, which
    reaches a non-null parameter of `Launch` and fails its null check. */
module LaunchMapper {
  import opened Common
  import opened Domain
  import opened Dtos

  const UnknownStatus := "Unknown"
  const UnknownProvider := "Unknown Provider"
  const UnknownMission := "Unknown Mission"
  const UnknownRocket := "Unknown Rocket"
  const UnknownPad := "Unknown Pad"
  const UnknownLocation := "Unknown Location"
  const UnknownCountry := "Unknown"

  /** The mapper reaches every object it dereferences. */
  predicate Dereferenceable(dto: LaunchDto)
  {
    && dto.id.Some? && dto.name.Some? && dto.net.Some?
    && dto.status.Some?
    && dto.pad.Some?
    && dto.pad.value.location.Some?
    && (dto.rocket.Some? ==> dto.rocket.value.configuration.Some?)
  }

  function DtoToDomain(dto: LaunchDto): (r: Option<Launch>)
    ensures r.Some? <==> Dereferenceable(dto)
    // copied verbatim
    ensures r.Some? ==> r.value.id == dto.id.value && r.value.name == dto.name.value
    ensures r.Some? ==> r.value.net == dto.net.value && r.value.image == dto.image
    // status: name defaulted, description passed through
    ensures r.Some? ==> r.value.status.name == dto.status.value.name.GetOr(UnknownStatus)
    ensures r.Some? ==> r.value.status.description == dto.status.value.description
    // the provider collapses to its name; an absent provider or name gives the default
    ensures r.Some? && dto.launchServiceProvider.Some? && dto.launchServiceProvider.value.name.Some? ==>
              r.value.launchServiceProvider == dto.launchServiceProvider.value.name.value
    ensures r.Some? && (dto.launchServiceProvider.None? || dto.launchServiceProvider.value.name.None?) ==>
              r.value.launchServiceProvider == UnknownProvider
    // mission present iff present on the wire
    ensures r.Some? ==> (r.value.mission.Some? <==> dto.mission.Some?)
    ensures r.Some? && dto.mission.Some? ==>
              && r.value.mission.value.name == dto.mission.value.name.GetOr(UnknownMission)
              && r.value.mission.value.description == dto.mission.value.description
              && r.value.mission.value.kind == dto.mission.value.kind
    // rocket present iff present on the wire
    ensures r.Some? ==> (r.value.rocket.Some? <==> dto.rocket.Some?)
    ensures r.Some? && dto.rocket.Some? ==>
              var c := dto.rocket.value.configuration.value;
              r.value.rocket.value.configuration == RocketConfiguration(c.name.GetOr(UnknownRocket), c.family, c.variant)
    // pad and location names defaulted
    ensures r.Some? ==>
              && r.value.pad.name == dto.pad.value.name.GetOr(UnknownPad)
              && r.value.pad.location.name == dto.pad.value.location.value.name.GetOr(UnknownLocation)
              && r.value.pad.location.country == dto.pad.value.location.value.countryCode.GetOr(UnknownCountry)
  {
    if !Dereferenceable(dto) then None
    else
      var status := dto.status.value;
      var pad := dto.pad.value;
      var location := pad.location.value;
      Some(Launch(
        id := dto.id.value,
        name := dto.name.value,
        status := LaunchStatus(status.name.GetOr(UnknownStatus), status.description),
        launchServiceProvider :=
          (match dto.launchServiceProvider
           case Some(p) => p.name.GetOr(UnknownProvider)
           case None => UnknownProvider),
        mission :=
          (match dto.mission
           case Some(m) => Some(Mission(m.name.GetOr(UnknownMission), m.description, m.kind))
           case None => None),
        rocket :=
          (match dto.rocket
           case Some(rocket) =>
             var c := rocket.configuration.value;
             Some(Rocket(RocketConfiguration(c.name.GetOr(UnknownRocket), c.family, c.variant)))
           case None => None),
        pad := Pad(pad.name.GetOr(UnknownPad),
                   Location(location.name.GetOr(UnknownLocation), location.countryCode.GetOr(UnknownCountry))),
        net := dto.net.value,
        image := dto.image))
  }

  /** `results.map { dtoToDomain(it) }`: the whole list, in order, or the
      exception of the first element that cannot be mapped. */
  function MapLaunches(dtos: seq<LaunchDto>): (r: Option<seq<Launch>>)
    ensures r.Some? <==> forall i :: 0 <= i < |dtos| ==> Dereferenceable(dtos[i])
    ensures r.Some? ==> |r.value| == |dtos|
    ensures r.Some? ==> forall i :: 0 <= i < |dtos| ==> Some(r.value[i]) == DtoToDomain(dtos[i])
    ensures r.Some? ==> forall i :: 0 <= i < |dtos| ==> Some(r.value[i].id) == dtos[i].id
  {
    if |dtos| == 0 then Some([])
    else
      match DtoToDomain(dtos[0])
      case None => None
      case Some(head) =>
        match MapLaunches(dtos[1..])
        case None => None
        case Some(tail) => Some([head] + tail)
  }
}

=== FILE: launch_repository.dfy ===
/** `LaunchRepositoryImpl`: remote first, the Room cache as the fallback.
    Each operation is a function of the store before the call, the
    environment (the clock reading and which DAO statements throw) and, for
    the fetching operations, what the remote call produced; it yields the
    store after the call and what the call returns or throws. */
module LaunchRepository {
  import opened Common
  import opened Domain
  import opened Dtos
  import opened Entities
  import opened Faults
  import opened Strings
  import opened LaunchSorting
  import LaunchMapper
  import LaunchDetailMapper
  import CachedLaunchMapper
  import CachedLaunchDetailMapper
  import Dao = LaunchDao

  /** `CACHE_DURATION_MS`: seven days in milliseconds. */
  const CacheDurationMs := 7 * 24 * 60 * 60 * 1000

  /** The `LaunchDao` methods, each naming the statement it runs. */
  datatype DaoCall =
    | insertCachedLaunches
    | getCachedLaunches
    | deleteOldCachedLaunches
    | addToFavorites
    | removeFromFavorites
    | isFavorite
    | getFavoriteLaunches
    | insertCachedLaunchDetail
    | getCachedLaunchDetail
    | deleteOldCachedLaunchDetails

  /** What the repository cannot see: `System.currentTimeMillis()`, the
      exception each failing DAO call throws (a failing statement changes
      nothing), and the message of the `NullPointerException` a mapper
      throws on an absent field. */
  datatype Env = Env(now: int, failing: map<DaoCall, Fault>, npeDetail: Option<string>)

  /** What an API call produced: the decoded body, or the exception. */
  datatype Remote<T> = Ok(payload: T) | Err(fault: Fault)

  /** The store after a call, and what the call returned. */
  datatype After<T> = After(store: Dao.Store, value: T)

  /** The exception a mapper throws on an absent field. */
  function MapperFault(env: Env): Fault
  {
    NullPointer(env.npeDetail)
  }

  /** `launches[i]` is the last launch of the batch with its id. */
  predicate LastOf(launches: seq<Launch>, i: int)
    requires 0 <= i < |launches|
  {
    forall j :: i < j < |launches| ==> launches[j].id != launches[i].id
  }

  /** Some launch of the batch has the id `k`. */
  predicate InBatch(launches: seq<Launch>, k: string)
  {
    exists i :: 0 <= i < |launches| && launches[i].id == k
  }

  // ---------------------------------------------------------------- caching

  /** `cacheLaunches`: upserts the batch stamped `now`; a failing insert is
      swallowed. */
  function CacheLaunches(s: Dao.Store, env: Env, launches: seq<Launch>): (r: Dao.Store)
    ensures r.favorites == s.favorites && r.details == s.details
    ensures insertCachedLaunches in env.failing ==> r == s
    ensures insertCachedLaunches !in env.failing ==>
              // each launch, the last with its id, reads back as itself
              && (forall i :: 0 <= i < |launches| && LastOf(launches, i) ==>
                    && launches[i].id in r.launches
                    && r.launches[launches[i].id].cachedAt == env.now
                    && CachedLaunchMapper.CachedToDomain(r.launches[launches[i].id]) == launches[i])
              // rows of other ids are untouched
              && (forall k :: k in s.launches && !InBatch(launches, k) ==> k in r.launches && r.launches[k] == s.launches[k])
              && (forall k :: k in r.launches ==> k in s.launches || InBatch(launches, k))
  {
    if insertCachedLaunches in env.failing then s
    else
      var rows := CachedLaunchMapper.ToCachedAll(launches, env.now);
      BatchIds(launches, rows);
      Dao.InsertCachedLaunches(s, rows)
  }

  /** The rows of a batch carry the ids of its launches. */
  lemma BatchIds(launches: seq<Launch>, rows: seq<CachedLaunchEntity>)
    requires |rows| == |launches|
    requires forall i :: 0 <= i < |launches| ==> rows[i].id == launches[i].id
    ensures forall k :: Dao.HasId(rows, k) <==> InBatch(launches, k)
    ensures forall i :: 0 <= i < |launches| && LastOf(launches, i) ==> Dao.LastWithId(rows, i)
  {
    forall k
      ensures Dao.HasId(rows, k) <==> InBatch(launches, k)
    {
      if Dao.HasId(rows, k) {
        var i :| 0 <= i < |rows| && rows[i].id == k;
        assert launches[i].id == k;
      }
      if InBatch(launches, k) {
        var i :| 0 <= i < |launches| && launches[i].id == k;
        assert rows[i].id == k;
      }
    }
  }

  /** `cacheLaunchDetail`: upserts the detail under its own id, stamped
      `now`; a failing insert is swallowed. */
  function CacheLaunchDetail(s: Dao.Store, env: Env, detail: LaunchDetail): (r: Dao.Store)
    ensures r.launches == s.launches && r.favorites == s.favorites
    ensures insertCachedLaunchDetail in env.failing ==> r == s
    ensures insertCachedLaunchDetail !in env.failing ==>
              && detail.id in r.details
              && r.details[detail.id].cachedAt == env.now
              && CachedLaunchDetailMapper.CachedToDomain(r.details[detail.id])
                 == CachedLaunchDetailMapper.CacheRoundTrip(detail)
              && (forall k :: k in s.details && k != detail.id ==> k in r.details && r.details[k] == s.details[k])
  {
    if insertCachedLaunchDetail in env.failing then s
    else
      CachedLaunchDetailMapper.RoundTripIgnoresWriteTime(detail, env.now);
      Dao.InsertCachedLaunchDetail(s, CachedLaunchDetailMapper.DomainToCached(detail, env.now))
  }

  // ---------------------------------------------------------------- reading the cache

  /** `getCachedLaunches`: the newest 50 rows as launches, or `[]` when the
      query throws. */
  ghost function GetCachedLaunches(s: Dao.Store, env: Env): (r: seq<Launch>)
    ensures getCachedLaunches in env.failing ==> r == []
    ensures getCachedLaunches !in env.failing ==>
              && |r| == Dao.Min(Dao.CachedLaunchesLimit, |s.launches.Values|)
              // each launch is the stored row of its id
              && (forall i :: 0 <= i < |r| ==>
                    r[i].id in s.launches && r[i] == CachedLaunchMapper.CachedToDomain(s.launches[r[i].id]))
              // each stored row at most once
              && (forall i, j :: 0 <= i < j < |r| ==> r[i].id != r[j].id)
              // newest first
              && (forall i, j :: 0 <= i < j < |r| ==> s.launches[r[i].id].cachedAt >= s.launches[r[j].id].cachedAt)
              // no row left out is newer than a row listed
              && (forall k, i :: k in s.launches && !InBatch(r, k) && 0 <= i < |r| ==>
                    s.launches[k].cachedAt <= s.launches[r[i].id].cachedAt)
  {
    if getCachedLaunches in env.failing then []
    else
      var rows := Dao.GetCachedLaunches(s);
      Dao.RowsOfTable(s.launches, rows);
      var r := CachedLaunchMapper.ToDomainAll(rows);
      NewestListed(s, rows, r);
      r
  }

  /** A stored row whose id is not listed is not among the rows read, so
      the read's "nothing newer left out" carries over to the launches. */
  lemma NewestListed(s: Dao.Store, rows: seq<CachedLaunchEntity>, r: seq<Launch>)
    requires forall i :: 0 <= i < |rows| ==> rows[i].id in s.launches && s.launches[rows[i].id] == rows[i]
    requires forall row, i :: row in s.launches.Values && row !in rows && 0 <= i < |rows| ==> row.cachedAt <= rows[i].cachedAt
    requires |r| == |rows| && forall i :: 0 <= i < |rows| ==> r[i].id == rows[i].id
    ensures forall k, i :: k in s.launches && !InBatch(r, k) && 0 <= i < |r| ==>
              s.launches[k].cachedAt <= s.launches[r[i].id].cachedAt
  {
    forall k, i | k in s.launches && !InBatch(r, k) && 0 <= i < |r|
      ensures s.launches[k].cachedAt <= s.launches[r[i].id].cachedAt
    {
      var row := s.launches[k];
      assert row in s.launches.Values;
      forall j | 0 <= j < |rows|
        ensures rows[j] != row
      {
        assert r[j].id != k;
      }
    }
  }

  /** `getCachedLaunchDetail`: the stored detail for the id, or `null` when
      there is none or the query throws. */
  function GetCachedLaunchDetail(s: Dao.Store, env: Env, launchId: string): (r: Option<LaunchDetail>)
    ensures getCachedLaunchDetail in env.failing ==> r.None?
    ensures getCachedLaunchDetail !in env.failing ==>
              && (r.Some? <==> launchId in s.details)
              && (r.Some? ==> r.value == CachedLaunchDetailMapper.CachedToDomain(s.details[launchId]))
  {
    if getCachedLaunchDetail in env.failing then None
    else
      match Dao.GetCachedLaunchDetail(s, launchId)
      case Some(row) => Some(CachedLaunchDetailMapper.CachedToDomain(row))
      case None => None
  }

  // ---------------------------------------------------------------- fetching

  /** The remote call returned a body with a `results` list (a `null` one
      throws at `response.results.size`) and every launch could be mapped. */
  predicate Fetched(remote: Remote<LaunchesResponseDto>)
  {
    remote.Ok? && remote.payload.results.Some? && LaunchMapper.MapLaunches(remote.payload.results.value).Some?
  }

  /** The refresh path ran to its end: fetched, mapped and evicted. */
  predicate Refreshed(env: Env, remote: Remote<LaunchesResponseDto>)
  {
    Fetched(remote) && deleteOldCachedLaunches !in env.failing
  }

  /** `getUpcomingLaunches`: fetch, map, evict week-old rows, cache the
      batch, return it; on any exception before the cache write, the cached
      list instead. Never throws. */
  ghost function GetUpcomingLaunches(s: Dao.Store, env: Env, remote: Remote<LaunchesResponseDto>): (r: After<seq<Launch>>)
    ensures r.store.favorites == s.favorites && r.store.details == s.details
    // the fallback: the cache as it was, read as `getCachedLaunches` reads it
    ensures !Refreshed(env, remote) ==> r.store == s && r.value == GetCachedLaunches(s, env)
    // the refresh: the API's list, mapped, in the API's order
    ensures Refreshed(env, remote) ==>
              && |r.value| == |remote.payload.results.value|
              && (forall i :: 0 <= i < |r.value| ==>
                    Some(r.value[i]) == LaunchMapper.DtoToDomain(remote.payload.results.value[i]))
    // rows older than a week that the batch does not replace are gone; younger ones stay
    ensures Refreshed(env, remote) ==>
              forall k :: k in s.launches && !InBatch(r.value, k) ==>
                (k in r.store.launches <==> s.launches[k].cachedAt >= env.now - CacheDurationMs)
                && (k in r.store.launches ==> r.store.launches[k] == s.launches[k])
    // no id appears that was neither stored nor fetched
    ensures Refreshed(env, remote) ==>
              forall k :: k in r.store.launches ==> k in s.launches || InBatch(r.value, k)
    // a failing write leaves exactly the eviction's result
    ensures Refreshed(env, remote) && insertCachedLaunches in env.failing ==>
              forall k ::
                && (k in r.store.launches <==> k in s.launches && s.launches[k].cachedAt >= env.now - CacheDurationMs)
                && (k in r.store.launches ==> r.store.launches[k] == s.launches[k])
    // every fetched launch is cached, stamped `now`, unless the write fails
    ensures Refreshed(env, remote) && insertCachedLaunches !in env.failing ==>
              forall i :: 0 <= i < |r.value| && LastOf(r.value, i) ==>
                && r.value[i].id in r.store.launches
                && r.store.launches[r.value[i].id].cachedAt == env.now
                && CachedLaunchMapper.CachedToDomain(r.store.launches[r.value[i].id]) == r.value[i]
  {
    if !Refreshed(env, remote) then After(s, GetCachedLaunches(s, env))
    else
      var launches := LaunchMapper.MapLaunches(remote.payload.results.value).value;
      var evicted := Dao.DeleteOldCachedLaunches(s, env.now - CacheDurationMs);
      After(CacheLaunches(evicted, env, launches), launches)
  }

  /** `mapToUserFriendlyException`: the exception `getLaunchDetail` throws
      when neither the API nor the cache has the detail. */
  function MapToUserFriendlyException(e: Fault): (r: Fault)
    ensures r.Other? && r.detail.Some?
    // the three network failures get fixed texts
    ensures (e.TimeoutCancellation? || e.SocketTimeout?) ==> r.detail.value == ServerNotRespondingText
    ensures e.UnknownHost? ==> r.detail.value == NoInternetText
    ensures e.SslHandshake? ==> r.detail.value == SecurityText
    // everything else keeps its message behind a fixed prefix
    ensures !(e.TimeoutCancellation? || e.SocketTimeout? || e.UnknownHost? || e.SslHandshake?) ==>
              r.detail.value == LoadFailedPrefix + e.Message().GetOr(UnknownErrorText)
  {
    if e.TimeoutCancellation? || e.SocketTimeout? then Other(Some(ServerNotRespondingText))
    else if e.UnknownHost? then Other(Some(NoInternetText))
    else if e.SslHandshake? then Other(Some(SecurityText))
    else Other(Some(LoadFailedPrefix + e.Message().GetOr(UnknownErrorText)))
  }

  /** The texts of `mapToUserFriendlyException`, verbatim, including the
      misspelt "отвежает". */
  const ServerNotRespondingText := "Сервер не отвежает. " + "Проверьте подключение к интернету"
  const NoInternetText := "Нет подключения к интернету"
  const SecurityText := "Ошибка безопасности соединения"
  const LoadFailedPrefix := "Не удалось загрузить данные: "
  const UnknownErrorText := "Неизвестная ошибка"

  /** The four classes of `mapToUserFriendlyException` are told apart by
      the text alone: only the catch-all carries the prefix, and the three
      fixed texts differ. */
  lemma UserFriendlyClassesDistinct(e: Fault)
    ensures StartsWith(MapToUserFriendlyException(e).detail.value, LoadFailedPrefix)
            <==> !(e.TimeoutCancellation? || e.SocketTimeout? || e.UnknownHost? || e.SslHandshake?)
    ensures ServerNotRespondingText != NoInternetText && NoInternetText != SecurityText
            && SecurityText != ServerNotRespondingText
  {
    var prefix := LoadFailedPrefix;
    assert ServerNotRespondingText[0] != prefix[0];
    assert NoInternetText[2] != prefix[2];
    assert SecurityText[0] != prefix[0];
    var t := MapToUserFriendlyException(e).detail.value;
    if !(e.TimeoutCancellation? || e.SocketTimeout? || e.UnknownHost? || e.SslHandshake?) {
      assert t[..|prefix|] == prefix;
    }
  }

  /** The remote call returned and the detail could be mapped. */
  predicate DetailFetched(remote: Remote<LaunchDetailDto>)
  {
    remote.Ok? && LaunchDetailMapper.DtoToDomain(remote.payload).Some?
  }

  /** The exception `getLaunchDetail` caught: the API's, or the mapper's. */
  function CaughtFault(env: Env, remote: Remote<LaunchDetailDto>): Fault
  {
    if remote.Err? then remote.fault else MapperFault(env)
  }

  /** `getLaunchDetail`: fetch, map, cache, return; on any exception, the
      cached detail for the requested id, or else the re-classified
      exception. */
  function GetLaunchDetail(s: Dao.Store, env: Env, launchId: string, remote: Remote<LaunchDetailDto>)
    : (r: After<Result<LaunchDetail, Fault>>)
    ensures r.store.launches == s.launches && r.store.favorites == s.favorites
    // fetched: the mapped detail, whether or not caching it succeeds
    ensures DetailFetched(remote) ==>
              && r.value == Success(LaunchDetailMapper.DtoToDomain(remote.payload).value)
              && r.store == CacheLaunchDetail(s, env, r.value.value)
    // not fetched: the store is untouched and the cache answers, or the classified exception
    ensures !DetailFetched(remote) ==> r.store == s
    ensures !DetailFetched(remote) ==>
              match GetCachedLaunchDetail(s, env, launchId)
              case Some(cached) => r.value == Success(cached)
              case None => r.value == Failure(MapToUserFriendlyException(CaughtFault(env, remote)))
  {
    if DetailFetched(remote) then
      var detail := LaunchDetailMapper.DtoToDomain(remote.payload).value;
      After(CacheLaunchDetail(s, env, detail), Success(detail))
    else
      match GetCachedLaunchDetail(s, env, launchId)
      case Some(cached) => After(s, Success(cached))
      case None => After(s, Failure(MapToUserFriendlyException(CaughtFault(env, remote))))
  }

  /** A detail fetched once is served from the cache, as its trip through
      the cache leaves it, when a later fetch of the same id fails. The
      detail is cached under the id of the wire object, so this holds only
      when that object carries the requested id; one without an id is
      cached under "unknown". */
  lemma DetailServedFromCache(s: Dao.Store, env1: Env, env2: Env, launchId: string,
                              first: Remote<LaunchDetailDto>, later: Remote<LaunchDetailDto>)
    requires DetailFetched(first) && first.payload.id == Some(launchId)
    requires insertCachedLaunchDetail !in env1.failing
    requires !DetailFetched(later) && getCachedLaunchDetail !in env2.failing
    ensures var fetched := GetLaunchDetail(s, env1, launchId, first);
      GetLaunchDetail(fetched.store, env2, launchId, later).value
      == Success(CachedLaunchDetailMapper.CacheRoundTrip(fetched.value.value))
  {
    var fetched := GetLaunchDetail(s, env1, launchId, first);
    assert fetched.value.value.id == launchId;
  }

  // ---------------------------------------------------------------- clearing

  /** `clearCache`: deletes summary rows, then detail rows, stamped before
      `now`; a failing statement ends the clearing, silently. */
  function ClearCache(s: Dao.Store, env: Env): (r: Dao.Store)
    ensures r.favorites == s.favorites
    // only ever deletes
    ensures forall k :: k in r.launches ==> k in s.launches && r.launches[k] == s.launches[k]
    ensures forall k :: k in r.details ==> k in s.details && r.details[k] == s.details[k]
    ensures deleteOldCachedLaunches in env.failing ==> r == s
    ensures deleteOldCachedLaunches !in env.failing ==>
              forall k :: k in s.launches ==> (k in r.launches <==> s.launches[k].cachedAt >= env.now)
    ensures deleteOldCachedLaunches !in env.failing && deleteOldCachedLaunchDetails !in env.failing ==>
              forall k :: k in s.details ==> (k in r.details <==> s.details[k].cachedAt >= env.now)
    ensures deleteOldCachedLaunchDetails in env.failing ==> r.details == s.details
  {
    if deleteOldCachedLaunches in env.failing then s
    else
      var s1 := Dao.DeleteOldCachedLaunches(s, env.now);
      if deleteOldCachedLaunchDetails in env.failing then s1
      else Dao.DeleteOldCachedLaunchDetails(s1, env.now)
  }

  // ---------------------------------------------------------------- favorites

  /** `addToFavorites`: upserts a favorite stamped `now`; a failure is
      rethrown. */
  function AddToFavorites(s: Dao.Store, env: Env, launchId: string): (r: After<Outcome<Fault>>)
    ensures r.store.launches == s.launches && r.store.details == s.details
    ensures addToFavorites in env.failing ==> r == After(s, Fail(env.failing[addToFavorites]))
    ensures addToFavorites !in env.failing ==>
              && r.value == Pass
              && r.store.favorites.Keys == s.favorites.Keys + {launchId}
              && r.store.favorites[launchId].addedAt == env.now
              // the other favorites keep their rows, `addedAt` included
              && (forall k :: k in s.favorites && k != launchId ==> r.store.favorites[k] == s.favorites[k])
  {
    if addToFavorites in env.failing then After(s, Fail(env.failing[addToFavorites]))
    else After(Dao.AddToFavorites(s, FavoriteLaunchEntity(launchId, env.now)), Pass)
  }

  /** `removeFromFavorites`: deletes the favorite; a failure is rethrown. */
  function RemoveFromFavorites(s: Dao.Store, env: Env, launchId: string): (r: After<Outcome<Fault>>)
    ensures r.store.launches == s.launches && r.store.details == s.details
    ensures removeFromFavorites in env.failing ==> r == After(s, Fail(env.failing[removeFromFavorites]))
    ensures removeFromFavorites !in env.failing ==>
              && r.value == Pass
              && r.store.favorites.Keys == s.favorites.Keys - {launchId}
              // the other favorites keep their rows, `addedAt` included
              && (forall k :: k in r.store.favorites ==> r.store.favorites[k] == s.favorites[k])
  {
    if removeFromFavorites in env.failing then After(s, Fail(env.failing[removeFromFavorites]))
    else After(Dao.RemoveFromFavorites(s, launchId), Pass)
  }

  /** `isFavorite`: `false` when the query throws. */
  function IsFavorite(s: Dao.Store, env: Env, launchId: string): (r: bool)
    ensures r <==> isFavorite !in env.failing && launchId in s.favorites
  {
    if isFavorite in env.failing then false
    else Dao.IsFavorite(s, launchId).Some?
  }

  /** `getFavoriteLaunches`: the cached launches that are favorites, most
      recently added first; `[]` when the query throws. */
  ghost function GetFavoriteLaunches(s: Dao.Store, env: Env): (r: seq<Launch>)
    ensures getFavoriteLaunches in env.failing ==> r == []
    ensures getFavoriteLaunches !in env.failing ==>
              // favorites with a cached row, as stored
              && (forall i :: 0 <= i < |r| ==>
                    && r[i].id in s.favorites && r[i].id in s.launches
                    && r[i] == CachedLaunchMapper.CachedToDomain(s.launches[r[i].id]))
              // all of them, each once
              && (forall k :: k in s.favorites && k in s.launches ==>
                    CachedLaunchMapper.CachedToDomain(s.launches[k]) in r)
              && (forall i, j :: 0 <= i < j < |r| ==> r[i].id != r[j].id)
              // most recently added first
              && (forall i, j :: 0 <= i < j < |r| ==> s.favorites[r[i].id].addedAt >= s.favorites[r[j].id].addedAt)
  {
    if getFavoriteLaunches in env.failing then []
    else
      var rows := Dao.GetFavoriteLaunches(s);
      Dao.FavoriteRowsOfTable(s, rows);
      FavoritesAsStored(s, rows);
      CachedLaunchMapper.ToDomainAll(rows)
  }

  lemma {:induction false} FavoritesAsStored(s: Dao.Store, rows: seq<CachedLaunchEntity>)
    requires forall i :: 0 <= i < |rows| ==>
               rows[i].id in s.favorites && rows[i].id in s.launches && s.launches[rows[i].id] == rows[i]
    requires forall k :: k in s.favorites && k in s.launches ==> s.launches[k] in rows
    ensures var r := CachedLaunchMapper.ToDomainAll(rows);
      forall k :: k in s.favorites && k in s.launches ==> CachedLaunchMapper.CachedToDomain(s.launches[k]) in r
  {
    var r := CachedLaunchMapper.ToDomainAll(rows);
    forall k | k in s.favorites && k in s.launches
      ensures CachedLaunchMapper.CachedToDomain(s.launches[k]) in r
    {
      var i :| 0 <= i < |rows| && rows[i] == s.launches[k];
      assert r[i] == CachedLaunchMapper.CachedToDomain(s.launches[k]);
    }
  }

  // ---------------------------------------------------------------- sorting

  /** `getLaunchesSortedBy`: `getUpcomingLaunches` sorted by the key of
      `sortType`, a missing rocket counting as "". */
  ghost function GetLaunchesSortedBy(s: Dao.Store, env: Env, remote: Remote<LaunchesResponseDto>, sortType: SortType)
    : (r: After<seq<Launch>>)
    ensures var upcoming := GetUpcomingLaunches(s, env, remote);
      && r.store == upcoming.store
      && multiset(r.value) == multiset(upcoming.value)
      && (!Descending(sortType) ==> forall i, j :: 0 <= i < j < |r.value| ==>
            StrLe(SortKey(sortType, RepositoryMissingRocket, r.value[i]), SortKey(sortType, RepositoryMissingRocket, r.value[j])))
      && (Descending(sortType) ==> forall i, j :: 0 <= i < j < |r.value| ==>
            StrLe(SortKey(sortType, RepositoryMissingRocket, r.value[j]), SortKey(sortType, RepositoryMissingRocket, r.value[i])))
      // stable: launches with equal keys keep their relative order
      && (forall k :: Sorting.WithKey(r.value, KeyOf(sortType, RepositoryMissingRocket), k)
                      == Sorting.WithKey(upcoming.value, KeyOf(sortType, RepositoryMissingRocket), k))
  {
    var upcoming := GetUpcomingLaunches(s, env, remote);
    After(upcoming.store, SortLaunches(upcoming.value, sortType, RepositoryMissingRocket))
  }
}

=== FILE: launch_sorting.dfy ===
/** The seven orders a launch list can be shown in, shared by
    `LaunchRepositoryImpl.getLaunchesSortedBy` and
    `LaunchViewModel.applySorting`. The two agree on every order except
    `ROCKET`, where they substitute different names for a launch without a
    rocket; the substitute is therefore a parameter here. */
module LaunchSorting {
  import opened Common
  import opened Domain
  import opened Strings
  import opened Sorting

  datatype SortType = DateAsc | DateDesc | NameAsc | NameDesc | ByAgency | ByCountry | ByRocket

  /** The substitute rocket name in `getLaunchesSortedBy`. */
  const RepositoryMissingRocket := ""

  /** The substitute rocket name in `applySorting`. */
  const ViewModelMissingRocket := "ZZZ"

  /** `rocket?.configuration?.name ?: missing`. */
  function RocketNameOr(l: Launch, missing: string): string
  {
    match l.rocket
    case Some(rocket) => rocket.configuration.name
    case None => missing
  }

  /** The selector passed to `sortedBy` / `sortedByDescending`. */
  function SortKey(t: SortType, missing: string, l: Launch): string
  {
    match t
    case DateAsc | DateDesc => l.net
    case NameAsc | NameDesc => l.name
    case ByAgency => l.launchServiceProvider
    case ByCountry => l.pad.location.country
    case ByRocket => RocketNameOr(l, missing)
  }

  function KeyOf(t: SortType, missing: string): Launch -> string
  {
    l => SortKey(t, missing, l)
  }

  /** The orders that use `sortedByDescending`. */
  predicate Descending(t: SortType)
  {
    t == DateDesc || t == NameDesc
  }

  predicate StrGe(a: string, b: string)
  {
    StrLe(b, a)
  }

  /** The key comparison of `t`: `compareBy`, or `compareByDescending`,
      which is the same comparison with its arguments swapped. */
  function OrderOf(t: SortType): (string, string) -> bool
  {
    if Descending(t) then StrGe else StrLe
  }

  lemma StrLeIsTotalOrder()
    ensures TotalOrder(StrLe)
  {
    forall a, b
      ensures StrLe(a, b) || StrLe(b, a)
    {
      StrLeTotal(a, b);
    }
    forall a, b | StrLe(a, b) && StrLe(b, a)
      ensures a == b
    {
      StrLeAntisymmetric(a, b);
    }
    forall a, b, c | StrLe(a, b) && StrLe(b, c)
      ensures StrLe(a, c)
    {
      StrLeTransitive(a, b, c);
    }
  }

  lemma StrGeIsTotalOrder()
    ensures TotalOrder(StrGe)
  {
    StrLeIsTotalOrder();
  }

  lemma OrderIsTotal(t: SortType)
    ensures TotalOrder(OrderOf(t))
  {
    if Descending(t) {
      StrGeIsTotalOrder();
    } else {
      StrLeIsTotalOrder();
    }
  }

  /** Kotlin's stable `sortedBy` / `sortedByDescending` with the key of `t`. */
  function SortLaunches(xs: seq<Launch>, t: SortType, missing: string): (r: seq<Launch>)
    ensures multiset(r) == multiset(xs) && |r| == |xs|
    // ascending keys, or descending ones for the DESC orders
    ensures !Descending(t) ==>
              forall i, j :: 0 <= i < j < |r| ==> StrLe(SortKey(t, missing, r[i]), SortKey(t, missing, r[j]))
    ensures Descending(t) ==>
              forall i, j :: 0 <= i < j < |r| ==> StrLe(SortKey(t, missing, r[j]), SortKey(t, missing, r[i]))
    // stable: launches with equal keys keep their input order
    ensures forall k :: WithKey(r, KeyOf(t, missing), k) == WithKey(xs, KeyOf(t, missing), k)
  {
    OrderIsTotal(t);
    var r := SortBy(xs, KeyOf(t, missing), OrderOf(t));
    assert forall i, j :: 0 <= i < j < |r| ==> OrderOf(t)(KeyOf(t, missing)(r[i]), KeyOf(t, missing)(r[j]));
    r
  }

  /** Two launches in whichever input order come out in key order when one
      key is strictly below the other. */
  lemma {:induction false} SortsPair(a: Launch, b: Launch, t: SortType, missing: string)
    requires !Descending(t)
    requires StrLe(SortKey(t, missing, a), SortKey(t, missing, b))
    requires !StrLe(SortKey(t, missing, b), SortKey(t, missing, a))
    ensures SortLaunches([a, b], t, missing) == [a, b]
    ensures SortLaunches([b, a], t, missing) == [a, b]
  {
    SortsPairFrom([a, b], a, b, t, missing);
    SortsPairFrom([b, a], a, b, t, missing);
  }

  lemma {:induction false} SortsPairFrom(xs: seq<Launch>, a: Launch, b: Launch, t: SortType, missing: string)
    requires !Descending(t)
    requires xs == [a, b] || xs == [b, a]
    requires !StrLe(SortKey(t, missing, b), SortKey(t, missing, a))
    ensures SortLaunches(xs, t, missing) == [a, b]
  {
    var r := SortLaunches(xs, t, missing);
    assert multiset(xs) == multiset{a, b};
    PairPermutation(xs, r, a, b);
    assert StrLe(SortKey(t, missing, r[0]), SortKey(t, missing, r[1]));
  }

  /** A list with the elements of a two-element list is one of its two orders. */
  lemma PairPermutation<T>(xs: seq<T>, r: seq<T>, a: T, b: T)
    requires multiset(xs) == multiset{a, b} && multiset(r) == multiset(xs) && |r| == 2
    ensures r == [a, b] || r == [b, a]
  {
    assert r[0] in multiset(r) && r[1] in multiset(r);
    if a == b {
      assert r == [a, a];
    } else if r[0] == a {
      assert multiset(r) == multiset{r[0]} + multiset{r[1]} by { assert r == [r[0]] + [r[1]]; }
    } else {
      assert multiset(r) == multiset{r[0]} + multiset{r[1]} by { assert r == [r[0]] + [r[1]]; }
    }
  }

  /** The repository puts a launch without a rocket before every launch with
      one, while the list screen puts it after a rocket named "Falcon 9":
      the two `ROCKET` orders of the same list disagree. */
  lemma RocketOrdersDisagree(withRocket: Launch, without: Launch)
    requires without.rocket.None?
    requires withRocket.rocket == Some(Rocket(RocketConfiguration("Falcon 9", None, None)))
    ensures SortLaunches([withRocket, without], ByRocket, RepositoryMissingRocket) == [without, withRocket]
    ensures SortLaunches([without, withRocket], ByRocket, ViewModelMissingRocket) == [withRocket, without]
  {
    assert StrLe("", "Falcon 9");
    assert !StrLe("Falcon 9", "");
    SortsPair(without, withRocket, ByRocket, RepositoryMissingRocket);
    assert StrLe("Falcon 9", "ZZZ");
    assert !StrLe("ZZZ", "Falcon 9");
    SortsPair(withRocket, without, ByRocket, ViewModelMissingRocket);
  }

  /** "ZZZ" does not put rocketless launches last: code points order 'Z'
      below every lower-case letter, so a rocket named "Zhuque-2" is placed
      after a launch without a rocket. */
  lemma MissingRocketNotLast(withRocket: Launch, without: Launch)
    requires without.rocket.None?
    requires withRocket.rocket == Some(Rocket(RocketConfiguration("Zhuque-2", None, None)))
    ensures SortLaunches([withRocket, without], ByRocket, ViewModelMissingRocket) == [without, withRocket]
  {
    assert StrLe("ZZZ", "Zhuque-2");
    assert !StrLe("Zhuque-2", "ZZZ");
    SortsPair(without, withRocket, ByRocket, ViewModelMissingRocket);
  }

  /** On every order but `ROCKET`, and on lists where every launch has a
      rocket, the substitute name is never consulted: the repository and the
      list screen order such lists identically. */
  lemma SentinelIrrelevant(xs: seq<Launch>, t: SortType, m1: string, m2: string)
    requires t != ByRocket || forall i :: 0 <= i < |xs| ==> xs[i].rocket.Some?
    ensures SortLaunches(xs, t, m1) == SortLaunches(xs, t, m2)
  {
    OrderIsTotal(t);
    forall y | y in xs
      ensures KeyOf(t, m1)(y) == KeyOf(t, m2)(y)
    {
    }
    SortByKeyAgnostic(xs, KeyOf(t, m1), KeyOf(t, m2), OrderOf(t));
  }
}

=== FILE: launch_view_model.dfy ===
/** `LaunchViewModel`: the launch list screen's state. Each coroutine the
    view model launches runs as one atomic step, and what the use case it
    awaits returned or threw is a parameter of that step. */
module LaunchViewModel {
  import opened Common
  import opened Domain
  import opened Faults
  import opened LaunchSorting
  import Repo = LaunchRepository
  import Dao = LaunchDao
  import CachedLaunchMapper

  /** `LaunchState`. */
  datatype LaunchState =
    | Loading
    | Success(launches: seq<Launch>, favorites: set<string>)
    | Error(message: string)

  /** `SortState`. */
  datatype SortState = SortState(currentSort: SortType, isSortDialogVisible: bool)

  /** `SortState()`: date ascending, dialog hidden. */
  const DefaultSortState := SortState(DateAsc, false)

  /** The view model's fields: the published list state, the published sort
      state, the favorite ids, and the last loaded list in load order. */
  datatype ListVm = ListVm(
    launchState: LaunchState,
    sortState: SortState,
    favorites: set<string>,
    cachedLaunches: seq<Launch>)

  /** The fields before `init` starts its two loads. */
  const InitialListVm := ListVm(Loading, DefaultSortState, {}, [])

  // ---------------------------------------------------------------- sorting

  /** `applySorting`: a launch without a rocket counts as "ZZZ". */
  function ApplySorting(launches: seq<Launch>, sortType: SortType): (r: seq<Launch>)
    ensures multiset(r) == multiset(launches) && |r| == |launches|
    ensures !Descending(sortType) ==> forall i, j :: 0 <= i < j < |r| ==>
              Strings.StrLe(SortKey(sortType, ViewModelMissingRocket, r[i]), SortKey(sortType, ViewModelMissingRocket, r[j]))
    ensures Descending(sortType) ==> forall i, j :: 0 <= i < j < |r| ==>
              Strings.StrLe(SortKey(sortType, ViewModelMissingRocket, r[j]), SortKey(sortType, ViewModelMissingRocket, r[i]))
    ensures forall k :: Sorting.WithKey(r, KeyOf(sortType, ViewModelMissingRocket), k)
                        == Sorting.WithKey(launches, KeyOf(sortType, ViewModelMissingRocket), k)
  {
    SortLaunches(launches, sortType, ViewModelMissingRocket)
  }

  /** `applyCurrentSorting`: re-sorts the loaded list when a list is shown. */
  function ApplyCurrentSorting(vm: ListVm): (r: ListVm)
    ensures r.sortState == vm.sortState && r.favorites == vm.favorites && r.cachedLaunches == vm.cachedLaunches
    ensures !vm.launchState.Success? ==> r.launchState == vm.launchState
    ensures vm.launchState.Success? ==>
              && r.launchState.Success?
              && r.launchState.favorites == vm.launchState.favorites
              && multiset(r.launchState.launches) == multiset(vm.cachedLaunches)
    // a shown list is the loaded list, stably sorted by the current order
    ensures ShowsSortedList(r)
  {
    match vm.launchState
    case Success(_, favorites) =>
      vm.(launchState := LaunchState.Success(ApplySorting(vm.cachedLaunches, vm.sortState.currentSort), favorites))
    case _ => vm
  }

  function ShowSortDialog(vm: ListVm): (r: ListVm)
    ensures r.sortState.isSortDialogVisible
    ensures r == vm.(sortState := r.sortState) && r.sortState.currentSort == vm.sortState.currentSort
  {
    vm.(sortState := vm.sortState.(isSortDialogVisible := true))
  }

  function HideSortDialog(vm: ListVm): (r: ListVm)
    ensures !r.sortState.isSortDialogVisible
    ensures r == vm.(sortState := r.sortState) && r.sortState.currentSort == vm.sortState.currentSort
  {
    vm.(sortState := vm.sortState.(isSortDialogVisible := false))
  }

  /** `setSortType`: records the order, hides the dialog, re-sorts. */
  function SetSortType(vm: ListVm, sortType: SortType): (r: ListVm)
    ensures r.sortState == SortState(sortType, false)
    ensures r.favorites == vm.favorites && r.cachedLaunches == vm.cachedLaunches
    ensures !vm.launchState.Success? ==> r.launchState == vm.launchState
    ensures vm.launchState.Success? ==>
              r.launchState == LaunchState.Success(ApplySorting(vm.cachedLaunches, sortType), vm.launchState.favorites)
  {
    ApplyCurrentSorting(vm.(sortState := SortState(sortType, false)))
  }

  // ---------------------------------------------------------------- loading

  /** The texts of `loadLaunches`' error state. */
  const CheckConnectionText := "Проверьте подключение к интернету"
  const ServerNotRespondingText := "Сервер не отвечает"
  const NetworkErrorText := "Ошибка сети"
  const LoadFailedText := "Не удалось загрузить данные"

  /** `loadLaunches`' classification of an exception, first match wins. */
  function ListErrorMessage(e: Fault): (r: string)
    ensures e.UnknownHost? <==> r == CheckConnectionText
    ensures e.SocketTimeout? <==> r == ServerNotRespondingText
    ensures (e.SslHandshake? || e.OtherIO?) <==> r == NetworkErrorText
    ensures !e.IsIOException() <==> r == LoadFailedText
  {
    if e.UnknownHost? then CheckConnectionText
    else if e.SocketTimeout? then ServerNotRespondingText
    else if e.IsIOException() then NetworkErrorText
    else LoadFailedText
  }

  /** `loadLaunches`: keeps the loaded list and shows it sorted, with the
      favorites known at that moment; or shows the classified error. */
  function LoadLaunches(vm: ListVm, result: Result<seq<Launch>, Fault>): (r: ListVm)
    ensures r.sortState == vm.sortState && r.favorites == vm.favorites
    ensures result.Success? ==>
              && r.cachedLaunches == result.value
              && r.launchState == LaunchState.Success(ApplySorting(result.value, vm.sortState.currentSort), vm.favorites)
    ensures result.Failure? ==>
              r.cachedLaunches == vm.cachedLaunches && r.launchState == Error(ListErrorMessage(result.error))
  {
    match result
    case Success(launches) =>
      vm.(cachedLaunches := launches,
          launchState := LaunchState.Success(ApplySorting(launches, vm.sortState.currentSort), vm.favorites))
    case Failure(e) => vm.(launchState := Error(ListErrorMessage(e)))
  }

  /** The ids of a list of launches. */
  function Ids(launches: seq<Launch>): (r: set<string>)
    ensures forall k :: k in r <==> exists i :: 0 <= i < |launches| && launches[i].id == k
  {
    set i | 0 <= i < |launches| :: launches[i].id
  }

  /** `loadFavorites`: replaces the favorite ids; the shown state is not
      refreshed. A failure is swallowed. */
  function LoadFavorites(vm: ListVm, result: Result<seq<Launch>, Fault>): (r: ListVm)
    ensures r.launchState == vm.launchState && r.sortState == vm.sortState
    ensures r.cachedLaunches == vm.cachedLaunches
    ensures result.Success? ==> r.favorites == Ids(result.value)
    ensures result.Failure? ==> r == vm
  {
    match result
    case Success(launches) => vm.(favorites := Ids(launches))
    case Failure(_) => vm
  }

  // ---------------------------------------------------------------- favorites

  /** `updateSuccessStateWithFavorites`. */
  function UpdateSuccessStateWithFavorites(vm: ListVm): (r: ListVm)
    ensures r.sortState == vm.sortState && r.favorites == vm.favorites && r.cachedLaunches == vm.cachedLaunches
    ensures vm.launchState.Success? ==> r.launchState == LaunchState.Success(vm.launchState.launches, vm.favorites)
    ensures !vm.launchState.Success? ==> r.launchState == vm.launchState
  {
    match vm.launchState
    case Success(launches, _) => vm.(launchState := LaunchState.Success(launches, vm.favorites))
    case _ => vm
  }

  /** `toggleFavorite`: `outcome` is what the remove call (for a favorite)
      or the add call (otherwise) did. The set changes only after the call
      returns. */
  function ToggleFavorite(vm: ListVm, launchId: string, outcome: Outcome<Fault>): (r: ListVm)
    ensures outcome.Fail? ==> r == vm
    ensures outcome.Pass? ==>
              && (launchId in r.favorites <==> launchId !in vm.favorites)
              && (forall k :: k != launchId ==> (k in r.favorites <==> k in vm.favorites))
              && r == UpdateSuccessStateWithFavorites(vm.(favorites := r.favorites))
  {
    match outcome
    case Fail(_) => vm
    case Pass =>
      var favorites := if launchId in vm.favorites then vm.favorites - {launchId} else vm.favorites + {launchId};
      UpdateSuccessStateWithFavorites(vm.(favorites := favorites))
  }

  /** `isFavorite`: answers from the screen's id set, not from the table. */
  function IsFavorite(vm: ListVm, launchId: string): (r: bool)
    ensures r <==> launchId in vm.favorites
  {
    launchId in vm.favorites
  }

  /** A successful toggle flips the answer for that id and no other; a
      failed one changes no answer. */
  lemma ToggleFlipsIsFavorite(vm: ListVm, launchId: string, other: string, outcome: Outcome<Fault>)
    ensures outcome.Pass? ==> IsFavorite(ToggleFavorite(vm, launchId, outcome), launchId) == !IsFavorite(vm, launchId)
    ensures outcome.Fail? || other != launchId ==>
              IsFavorite(ToggleFavorite(vm, launchId, outcome), other) == IsFavorite(vm, other)
  {
  }

  // ---------------------------------------------------------------- laws

  /** A shown list is always the loaded list sorted by the current order. */
  predicate ShowsSortedList(vm: ListVm)
  {
    vm.launchState.Success? ==>
      vm.launchState.launches == ApplySorting(vm.cachedLaunches, vm.sortState.currentSort)
  }

  /** One step of the screen: a finished coroutine or a user action. */
  datatype Step =
    | LoadLaunchesStep(launches: Result<seq<Launch>, Fault>)
    | LoadFavoritesStep(favoriteLaunches: Result<seq<Launch>, Fault>)
    | ToggleFavoriteStep(launchId: string, outcome: Outcome<Fault>)
    | ShowSortDialogStep
    | HideSortDialogStep
    | SetSortTypeStep(sortType: SortType)

  function Apply(vm: ListVm, step: Step): ListVm
  {
    match step
    case LoadLaunchesStep(result) => LoadLaunches(vm, result)
    case LoadFavoritesStep(result) => LoadFavorites(vm, result)
    case ToggleFavoriteStep(id, outcome) => ToggleFavorite(vm, id, outcome)
    case ShowSortDialogStep => ShowSortDialog(vm)
    case HideSortDialogStep => HideSortDialog(vm)
    case SetSortTypeStep(t) => SetSortType(vm, t)
  }

  function ApplyAll(vm: ListVm, steps: seq<Step>): ListVm
    decreases |steps|
  {
    if |steps| == 0 then vm else ApplyAll(Apply(vm, steps[0]), steps[1..])
  }

  /** Every step keeps the shown list equal to the loaded list in the
      current order, so the shown list never depends on earlier orders. */
  lemma {:induction false} StepsShowSortedList(vm: ListVm, steps: seq<Step>)
    requires ShowsSortedList(vm)
    ensures ShowsSortedList(ApplyAll(vm, steps))
    decreases |steps|
  {
    if |steps| > 0 {
      StepShowsSortedList(vm, steps[0]);
      StepsShowSortedList(Apply(vm, steps[0]), steps[1..]);
    }
  }

  lemma StepShowsSortedList(vm: ListVm, step: Step)
    requires ShowsSortedList(vm)
    ensures ShowsSortedList(Apply(vm, step))
  {
  }

  lemma InitialShowsSortedList()
    ensures ShowsSortedList(InitialListVm)
    ensures InitialListVm.sortState == SortState(DateAsc, false)
  {
  }

  /** Toggling the same launch twice, both calls succeeding, restores the
      favorites and the shown state. */
  lemma ToggleTwice(vm: ListVm, launchId: string)
    requires vm.launchState.Success? ==> vm.launchState.favorites == vm.favorites
    ensures ToggleFavorite(ToggleFavorite(vm, launchId, Pass), launchId, Pass) == vm
  {
    var once := ToggleFavorite(vm, launchId, Pass);
    assert ToggleFavorite(once, launchId, Pass).favorites == vm.favorites;
  }

  /** With the real repository behind the use cases, `toggleFavorite`
      keeps the screen's favorite ids equal to the favorites table whether
      the call succeeds or throws. */
  lemma ToggleKeepsFavoritesInSync(vm: ListVm, s: Dao.Store, env: Repo.Env, launchId: string)
    requires vm.favorites == s.favorites.Keys
    ensures var call := if launchId in vm.favorites then Repo.RemoveFromFavorites(s, env, launchId)
                        else Repo.AddToFavorites(s, env, launchId);
      ToggleFavorite(vm, launchId, call.value).favorites == call.store.favorites.Keys
  {
  }

  /** `loadFavorites` through the real repository sees only favorites whose
      summary row is still cached: a favorite evicted from
      `cached_launches` drops out of the screen's set while it stays in the
      favorites table. */
  lemma LoadFavoritesSeesCachedOnly(vm: ListVm, s: Dao.Store, env: Repo.Env)
    requires Repo.getFavoriteLaunches !in env.failing
    ensures LoadFavorites(vm, Result.Success(Repo.GetFavoriteLaunches(s, env))).favorites
            == s.favorites.Keys * s.launches.Keys
  {
    var r := Repo.GetFavoriteLaunches(s, env);
    var ids := LoadFavorites(vm, Result.Success(r)).favorites;
    forall k | k in s.favorites.Keys * s.launches.Keys
      ensures k in ids
    {
      var l := CachedLaunchMapper.CachedToDomain(s.launches[k]);
      assert l in r;
      var i :| 0 <= i < |r| && r[i] == l;
      assert r[i].id == k;
    }
  }
}

=== FILE: sorting.dfy ===
/** A stable sort by key, the semantics of Kotlin's `sortedBy` and
    `sortedByDescending` (both stable) and of an SQL `ORDER BY` over rows
    whose tie order the query leaves open. */
module Sorting {

  /** `le` is a total order on keys. */
  ghost predicate TotalOrder<K(!new)>(le: (K, K) -> bool)
  {
    && (forall a, b :: le(a, b) || le(b, a))
    && (forall a, b :: le(a, b) && le(b, a) ==> a == b)
    && (forall a, b, c :: le(a, b) && le(b, c) ==> le(a, c))
  }

  predicate SortedBy<T, K>(xs: seq<T>, key: T -> K, le: (K, K) -> bool)
  {
    forall i, j :: 0 <= i < j < |xs| ==> le(key(xs[i]), key(xs[j]))
  }

  /** The elements of `xs` whose key is `k`, in their order in `xs`. */
  function WithKey<T, K(==)>(xs: seq<T>, key: T -> K, k: K): seq<T>
  {
    if |xs| == 0 then []
    else WithKey(xs[..|xs| - 1], key, k) + (if key(xs[|xs| - 1]) == k then [xs[|xs| - 1]] else [])
  }

  lemma WithKeySnoc<T, K>(s: seq<T>, x: T, key: T -> K, k: K)
    ensures WithKey(s + [x], key, k) == WithKey(s, key, k) + (if key(x) == k then [x] else [])
  {
    assert (s + [x])[..|s|] == s;
  }

  /** Inserts `x` into the sorted `s` after every element whose key is at
      most `x`'s: equal keys keep their arrival order. */
  function Insert<T(==), K(==,!new)>(s: seq<T>, x: T, key: T -> K, le: (K, K) -> bool): (r: seq<T>)
    requires TotalOrder(le)
    requires SortedBy(s, key, le)
    ensures SortedBy(r, key, le)
    ensures multiset(r) == multiset(s) + multiset{x}
    ensures |r| == |s| + 1
    ensures forall k :: WithKey(r, key, k) == WithKey(s, key, k) + (if key(x) == k then [x] else [])
    decreases |s|
  {
    if |s| == 0 then [x]
    else if le(key(s[|s| - 1]), key(x)) then
      InsertAtEnd(s, x, key, le);
      s + [x]
    else
      var last := s[|s| - 1];
      var front := s[..|s| - 1];
      assert s == front + [last];
      var r := Insert(front, x, key, le);
      InsertBeforeLast(front, last, x, r, key, le);
      r + [last]
  }

  lemma InsertAtEnd<T, K(!new)>(s: seq<T>, x: T, key: T -> K, le: (K, K) -> bool)
    requires TotalOrder(le)
    requires SortedBy(s, key, le)
    requires |s| > 0 && le(key(s[|s| - 1]), key(x))
    ensures SortedBy(s + [x], key, le)
    ensures forall k :: WithKey(s + [x], key, k) == WithKey(s, key, k) + (if key(x) == k then [x] else [])
  {
    forall k {
      WithKeySnoc(s, x, key, k);
    }
  }

  lemma InsertBeforeLast<T, K(!new)>(front: seq<T>, last: T, x: T, r: seq<T>, key: T -> K, le: (K, K) -> bool)
    requires TotalOrder(le)
    requires SortedBy(front + [last], key, le)
    requires !le(key(last), key(x))
    requires SortedBy(r, key, le)
    requires multiset(r) == multiset(front) + multiset{x}
    requires forall k :: WithKey(r, key, k) == WithKey(front, key, k) + (if key(x) == k then [x] else [])
    ensures SortedBy(r + [last], key, le)
    ensures forall k :: WithKey(r + [last], key, k) == WithKey(front + [last], key, k) + (if key(x) == k then [x] else [])
  {
    forall i | 0 <= i < |r|
      ensures le(key(r[i]), key(last))
    {
      BelowLast(front, last, x, r, key, le, i);
    }
    SortedSnoc(r, last, key, le);
    forall k
      ensures WithKey(r + [last], key, k) == WithKey(front + [last], key, k) + (if key(x) == k then [x] else [])
    {
      WithKeySnoc(r, last, key, k);
      WithKeySnoc(front, last, key, k);
      assert le(key(x), key(x));
      assert key(x) == k ==> key(last) != k;
    }
  }

  lemma BelowLast<T, K(!new)>(front: seq<T>, last: T, x: T, r: seq<T>, key: T -> K, le: (K, K) -> bool, i: int)
    requires TotalOrder(le)
    requires SortedBy(front + [last], key, le)
    requires !le(key(last), key(x))
    requires multiset(r) == multiset(front) + multiset{x}
    requires 0 <= i < |r|
    ensures le(key(r[i]), key(last))
  {
    var s := front + [last];
    assert r[i] in multiset(r);
    if r[i] != x {
      assert r[i] in multiset(front);
      var j :| 0 <= j < |front| && front[j] == r[i];
      assert s[j] == r[i] && s[|front|] == last;
    }
  }

  lemma SortedSnoc<T, K>(r: seq<T>, last: T, key: T -> K, le: (K, K) -> bool)
    requires SortedBy(r, key, le)
    requires forall i :: 0 <= i < |r| ==> le(key(r[i]), key(last))
    ensures SortedBy(r + [last], key, le)
  {
  }

  /** Stable insertion sort: the result is ordered by key, is a permutation
      of the input, and elements with equal keys keep their input order. */
  function SortBy<T(==), K(==,!new)>(xs: seq<T>, key: T -> K, le: (K, K) -> bool): (r: seq<T>)
    requires TotalOrder(le)
    ensures SortedBy(r, key, le)
    ensures multiset(r) == multiset(xs)
    ensures |r| == |xs|
    ensures forall k :: WithKey(r, key, k) == WithKey(xs, key, k)
  {
    if |xs| == 0 then []
    else
      assert xs == xs[..|xs| - 1] + [xs[|xs| - 1]];
      Insert(SortBy(xs[..|xs| - 1], key, le), xs[|xs| - 1], key, le)
  }

  /** Insertion consults keys only through the elements it compares. */
  lemma {:induction false} InsertKeyAgnostic<T, K(!new)>(s: seq<T>, x: T, k1: T -> K, k2: T -> K, le: (K, K) -> bool)
    requires TotalOrder(le)
    requires SortedBy(s, k1, le) && SortedBy(s, k2, le)
    requires k1(x) == k2(x) && forall y :: y in s ==> k1(y) == k2(y)
    ensures Insert(s, x, k1, le) == Insert(s, x, k2, le)
    decreases |s|
  {
    if |s| > 0 && !le(k1(s[|s| - 1]), k1(x)) {
      var front := s[..|s| - 1];
      assert forall y :: y in front ==> y in s;
      InsertKeyAgnostic(front, x, k1, k2, le);
    }
  }

  /** Two key functions that agree on the elements of `xs` sort it alike. */
  lemma {:induction false} SortByKeyAgnostic<T, K(!new)>(xs: seq<T>, k1: T -> K, k2: T -> K, le: (K, K) -> bool)
    requires TotalOrder(le)
    requires forall y :: y in xs ==> k1(y) == k2(y)
    ensures SortBy(xs, k1, le) == SortBy(xs, k2, le)
    decreases |xs|
  {
    if |xs| > 0 {
      var front := xs[..|xs| - 1];
      assert forall y :: y in front ==> y in xs;
      SortByKeyAgnostic(front, k1, k2, le);
      var sorted := SortBy(front, k1, le);
      assert forall y :: y in sorted ==> y in front by {
        forall y | y in sorted ensures y in front {
          assert y in multiset(sorted);
        }
      }
      InsertKeyAgnostic(sorted, xs[|xs| - 1], k1, k2, le);
    }
  }
}

=== FILE: strings.dfy ===
/** The `String` operations the data layer relies on: `compareTo` (the order
    every `sortedBy` uses), `contains`, and `Int.toString`. */
module Strings {

  /** `a.compareTo(b) <= 0` for Kotlin strings: lexicographic by character,
      a proper prefix coming first. Characters compare by code point, which
      agrees with Kotlin's UTF-16 code-unit order below U+D800. */
  predicate StrLe(a: string, b: string)
  {
    if |a| == 0 then true
    else if |b| == 0 then false
    else if a[0] != b[0] then a[0] < b[0]
    else StrLe(a[1..], b[1..])
  }

  lemma {:induction false} StrLeTotal(a: string, b: string)
    ensures StrLe(a, b) || StrLe(b, a)
  {
    if |a| != 0 && |b| != 0 && a[0] == b[0] {
      StrLeTotal(a[1..], b[1..]);
    }
  }

  lemma {:induction false} StrLeTransitive(a: string, b: string, c: string)
    requires StrLe(a, b) && StrLe(b, c)
    ensures StrLe(a, c)
  {
    if |a| != 0 && |b| != 0 && |c| != 0 && a[0] == b[0] && b[0] == c[0] {
      StrLeTransitive(a[1..], b[1..], c[1..]);
    }
  }

  lemma {:induction false} StrLeAntisymmetric(a: string, b: string)
    requires StrLe(a, b) && StrLe(b, a)
    ensures a == b
  {
    if |a| != 0 && |b| != 0 {
      StrLeAntisymmetric(a[1..], b[1..]);
      assert a == [a[0]] + a[1..] && b == [b[0]] + b[1..];
    }
  }

  predicate StartsWith(s: string, prefix: string)
  {
    |prefix| <= |s| && s[..|prefix|] == prefix
  }

  /** `s.contains(t)`. */
  predicate Contains(s: string, t: string)
    decreases |s|
  {
    StartsWith(s, t) || (|s| > 0 && Contains(s[1..], t))
  }

  /** A prefix that does not hold the first character of `t` cannot start
      or straddle an occurrence of `t`. */
  lemma {:induction false} ContainsAfterPrefix(p: string, m: string, t: string)
    requires |t| > 0 && t[0] !in p
    ensures Contains(p + m, t) <==> Contains(m, t)
  {
    if |p| == 0 {
      assert p + m == m;
    } else {
      assert (p + m)[0] == p[0] != t[0];
      assert !StartsWith(p + m, t);
      assert (p + m)[1..] == p[1..] + m;
      ContainsAfterPrefix(p[1..], m, t);
    }
  }

  lemma NotContains(s: string, t: string)
    requires |t| > 0 && t[0] !in s
    ensures !Contains(s, t)
  {
    ContainsAfterPrefix(s, "", t);
    assert s + "" == s;
  }

  predicate IsDigit(c: char)
  {
    '0' <= c <= '9'
  }

  function DigitValue(c: char): (d: nat)
    requires IsDigit(c)
    ensures d < 10
  {
    c as int - '0' as int
  }

  function DigitChar(d: int): (c: char)
    requires 0 <= d < 10
    ensures IsDigit(c) && DigitValue(c) == d
  {
    (48 + d) as char
  }

  /** `n.toString()` for a non-negative `n`. */
  function NatToDecimal(n: nat): (s: string)
    ensures |s| > 0
    ensures forall i :: 0 <= i < |s| ==> IsDigit(s[i])
  {
    if n < 10 then [DigitChar(n)] else NatToDecimal(n / 10) + [DigitChar(n % 10)]
  }

  /** `n.toString()`: a minus sign before the digits of `|n|`. */
  function IntToDecimal(n: int): (s: string)
    ensures |s| > 0
    ensures n >= 0 <==> IsDigit(s[0])
    ensures n < 0 ==> s[0] == '-' && s[1..] == NatToDecimal(-n)
    ensures n >= 0 ==> s == NatToDecimal(n)
  {
    if n < 0 then "-" + NatToDecimal(-n) else NatToDecimal(n)
  }

  /** The number a string of decimal digits denotes. */
  function DecimalValue(s: string): nat
    requires forall i :: 0 <= i < |s| ==> IsDigit(s[i])
  {
    if |s| == 0 then 0 else DecimalValue(s[..|s| - 1]) * 10 + DigitValue(s[|s| - 1])
  }

  /** Rendering a number in decimal loses nothing. */
  lemma {:induction false} DecimalRoundTrip(n: nat)
    ensures DecimalValue(NatToDecimal(n)) == n
  {
    if n >= 10 {
      var s := NatToDecimal(n);
      assert s[..|s| - 1] == NatToDecimal(n / 10);
      DecimalRoundTrip(n / 10);
    }
  }
}
